=== FILE: README.md ===
# FTDI USB-serial protocol engine

A Dafny model of the protocol engine of the FreeBSD `uftdi` driver
(`sys/dev/usb/serial/uftdi.c`). The engine has seven parts. Each one is
modelled as functions over naturals, bit-vectors and byte sequences; the
read path also has methods for the driver's loop:

- **Chip-generation resolution** (`DevTypes`): from `bcdDevice` and
  serial-number presence to the chip generation, capability flags, output
  header length and port number.
- **Baud-rate encoders** (`Baud`): the fixed-table encoder of the SIO chips,
  and the fractional-divisor encoder of every later chip. The divisor
  encoder covers clock choice, range check, 1/16 fixed-point division,
  per-generation rounding, the 3% tolerance check and re-packing into the
  request words.
  - The chip's own reading of those words (`ChipDivisor`) is written from
    the driver's comments. It is the partner every encoder result is checked
    against.
  - `Bits` models C's `|` on unsigned words bit for bit. This matters
    because the divisor's fields can collide.
- **Line-parameter translation** (`LineParams`): the line control word
  (lcr), the flow-control selector and the XON/XOFF characters. `DecodeLcr`,
  the chip's reading of an lcr, is the partner.
- **Break toggling and lcr bookkeeping** (`Softc`): the remembered lcr, the
  break bit, and its replacement by a reconfiguration.
- **Output framing** (`OutputFraming`): headerless buffers, or packets of a
  one-byte tag plus at most 63 bytes. `Unframe`, the chip's reading of a
  headered buffer, is the partner.
- **Input parsing** (`InputParsing`): the walk over 2-byte status headers
  and payloads. `ParseInput` is the driver's loop. `ReadData` is a
  functional reference definition. `Serialize`, the chip's side, is the
  inverse.
- **Status-change tracking** (`Softc`): when a change notification goes up,
  and what the softc remembers.

Register constants (`FTDI_SIO_*`, `FTDI_GET_MSR/LSR`, `FTDI_OUT_TAG`,
`FTDI_LSR_MASK`, `FTDI_PIT_SIOA`) are defined in `Registers` with the values
of `uftdi_reg.h`. That header is not part of this model.

The tty layer's `ucom_get_data` is modelled as taking bytes from the front
of the pending output. How many bytes it hands over per call is a
parameter, `caps`; an empty list means it always fills the request.
`ucom_put_data` is modelled as appending to the delivered payload.

Each status report is compared against the status the softc remembers,
which attach leaves zeroed. So a first report with no modem signals and a
clear line status does not notify (`Softc.FirstQuietReportIsSilent`).

The line-parameter layer (`LineParams.EncodeSpeed`, `SetParmSoft`, and the
`Softc` operations built on them) uses the divisor encoder as the driver has
it, `Baud.EncodeBaudAsWritten`. The corrected encoder `Baud.EncodeBaud` sits
beside it. It fixes the three defects listed under "## Findings", and
`BaudFindings` relates the two.

## Model

| member | source | states |
|---|---|---|
| DevTypes.DevTypeSetup | sys/dev/usb/serial/uftdi.c:983-1045 | Release 0x200 gives a 232B iff there is no serial-number string, else a 232A. The listed releases give their generation. Unknown releases below 0x200 give SIO, the only generation with a 1-byte output header; the other unknown releases are assumed to be a 232R. The 12 MHz clock comes only with 0x700/0x800/0x900, always together with the high-index baud bits. The port number is FTDI_PIT_SIOA plus the interface number on exactly the generations that take the high-index baud bits, and 0 otherwise. |
| Baud.SioEncodeBaud | sys/dev/usb/serial/uftdi.c:1410-1430 | Succeeds iff the speed is one of the ten table speeds. The low word is then that speed's index and the high word is 0. Any other speed gives ERANGE. |
| Baud.ToleranceMeaning | sys/dev/usb/serial/uftdi.c:1403-1407 | The tolerance test with integer division holds iff 100·target ≤ 103·hw + 102 and 97·hw ≤ 100·target. |
| Baud.RoundDivisor | sys/dev/usb/serial/uftdi.c:1484-1491 | A 1/16 nibble of 1 is truncated to a whole divisor (fraction .0). Other chips round half up to the nearest eighth, so twice the halved divisor is the 1/16 divisor or one more (an error of at most one sixteenth). Every rounding adds at most 255 sixteenths, the largest `uint8_t` entry. On a 232A the eighths fraction is always one of 0, 1, 2 and 4, with the table as stored or as commented. With the table as commented, the rounding error stays within -3..+4 sixteenths. The halved divisor is at least 8. |
| Baud.RoundDivisorNearest | sys/dev/usb/serial/uftdi.c:1477-1488 | With the table as commented, a 232A divisor whose nibble is not 1 goes to a nearest divisor the chip supports (fraction .0, .125, .25 or .5, or the next whole divisor), ties going up. |
| Baud.CheckedDivisor | sys/dev/usb/serial/uftdi.c:1447-1499 | Succeeds iff the speed is reachable on the selected clock (from clk>>14 to clk) and the rounded divisor's chip speed is within 3% of the request. Otherwise ERANGE, the only error. The accepted divisor is the rounded one, and its integral part fits in 16 bits. It is on the selected clock, at least 8 eighths, and the chip speed it gives is within 3% of the request. On a 232A its encoded fraction code is at most 3. |
| Baud.RepackRoundTrip | sys/dev/usb/serial/uftdi.c:1514-1533 | If the integral part fits in 14 bits and an integral part of 1 comes with fraction .0 or .5, the chip reads the re-packed words back as exactly the divisor, clock included. The fraction code it reads is the encoded one. This holds with and without the high-index shift. |
| Baud.EncodeBaud | sys/dev/usb/serial/uftdi.c:1432-1536 | The corrected divisor encoder. It succeeds iff the checked divisor (with the commented 232A table) is accepted, its integral part fits in 14 bits, and an integral part of 1 comes with fraction .0 or .5. Otherwise ERANGE, the only error. The chip reads the words back as exactly the checked divisor: on the selected clock, with a speed within 3% of the request. On a 232A the fraction code is at most 3. |
| Baud.EncodeBaudAsWritten | sys/dev/usb/serial/uftdi.c:1432-1536 | The encoder as the driver has it. It succeeds iff the checked divisor with the stored `uint8_t` table is accepted; otherwise ERANGE. The low word fits in 16 bits, the high bits are at most 3 before the high-index shift, and with the shift the high word's low byte is zero. When the divisor is representable (integral part of 14 bits, and .0 or .5 with integral part 1), the chip reads exactly that divisor, within 3% of the request. |
| Baud.SelectClock | sys/dev/usb/serial/uftdi.c:1447-1453 | The 12 MHz clock is chosen iff the chip has the 12 MHz capability and the speed is at least 1200; otherwise 3 MHz. |
| Baud.Rounded | sys/dev/usb/serial/uftdi.c:1484-1491 | For a reachable speed, the divisor is the clock/speed quotient in sixteenths, rounded by `RoundDivisor`. Twice it is within -3..+4 sixteenths of that quotient with the commented 232A table, and within one sixteenth on other chips. It is on the selected clock, at least 8 eighths, with an integral part below 2^16. On a 232A its encoded fraction code is at most 3. |
| Baud.Repack | sys/dev/usb/serial/uftdi.c:1513-1533 | The low word fits in 16 bits. With an integral part below 2^16 the high bits are at most 3 before the high-index shift. With the shift, the high word's low byte is zero. |
| Baud.SioSpeedsEncode | sys/dev/usb/serial/uftdi.c:1414-1499 | Every speed of the SIO table is accepted by both the driver's divisor encoder and the corrected one, on every chip generation with its own capability flags. |
| BaudFindings.StoredRoundoffShift | sys/dev/usb/serial/uftdi.c:1436-1491 | With the `uint8_t` table, nibbles 5, 9, 10 and 11 give a divisor exactly 128 eighths larger than the commented table would, that is 16 more in the integral part. Every other nibble gives the same divisor. |
| BaudFindings.StoredRoundoffRejects14400 | sys/dev/usb/serial/uftdi.c:1484-1499 | 14400 bit/s on a 232A is rejected as written, because the chip would run at 13377 bit/s. The corrected encoder accepts it (14405 bit/s). |
| BaudFindings.IntegralOverflowAt183 | sys/dev/usb/serial/uftdi.c:1455-1533 | 183 bit/s at 3 MHz passes the range and tolerance checks with integral part 16393. As written, the request words are 0x4009 and 0, which the chip reads as 9.5, running at 315789 bit/s, far outside 3%. The corrected encoder returns ERANGE. |
| BaudFindings.IntegralOneFraction | sys/dev/usb/serial/uftdi.c:1506-1522 | 2666666 bit/s on a 232R rounds to 1.125, passes tolerance and is sent as integral 1, fraction 0. The chip reads that as 1.5 and runs at 2000000 bit/s. The corrected encoder returns ERANGE. |
| BaudFindings.CorrectedAgreesWithWritten | sys/dev/usb/serial/uftdi.c:1432-1536 | Wherever the corrected encoder succeeds, except at 232A nibbles 5, 9, 10 and 11, the encoder as written gives the same words. |
| BaudFindings.WrittenAgreesWithCorrected | sys/dev/usb/serial/uftdi.c:1432-1536 | Conversely, wherever the encoder as written succeeds on a representable divisor, except at 232A nibbles 5, 9, 10 and 11, the corrected encoder gives the same words. |
| LineParams.EncodeSpeed | sys/dev/usb/serial/uftdi.c:1547-1552 | SIO chips use the table and other chips the driver's divisor encoder, and ERANGE is the only error. On SIO it succeeds iff the speed is a table speed, giving its index and a zero high word. Otherwise it succeeds iff the checked divisor with the stored 232A table is accepted; the high bits are then at most 3 before the high-index shift, and a representable divisor is read by the chip within 3% of the request. |
| LineParams.TableSpeedsConfigure | sys/dev/usb/serial/uftdi.c:1539-1552 | On a chip with its own capability flags, any output speed from the SIO table passes parameter translation. |
| LineParams.LineControlWord | sys/dev/usb/serial/uftdi.c:1554-1584 | The chip reads the lcr built from CSTOPB, PARENB/PARODD and CSIZE as exactly the requested data bits, parity and stop bits, with break clear. |
| LineParams.FlowControl | sys/dev/usb/serial/uftdi.c:1586-1595 | The selector is RTS/CTS iff CRTSCTS; XON/XOFF iff not CRTSCTS and IXON or IXOFF; disabled iff none of them. The start and stop characters are VSTART/VSTOP under XON/XOFF and zero otherwise. |
| LineParams.SetParmSoft | sys/dev/usb/serial/uftdi.c:1539-1598 | Fails iff the driver's speed encoder fails, and only with ERANGE. On success the baud words are the encoder's and the lcr decodes to the requested line settings. The flow selector follows the RTS/CTS, then XON/XOFF, then none priority, both directions. The XON/XOFF characters are nonzero only through the XON/XOFF branch. |
| Softc.AttachedLineControl | sys/dev/usb/serial/uftdi.c:1118-1121 | After attach the remembered lcr reads as 8 data bits, no parity, 2 stop bits, no break. |
| Softc.WithBreak | sys/dev/usb/serial/uftdi.c:1381-1385 | Setting or clearing the break keeps every other lcr bit. The break bit ends up as requested. |
| Softc.CfgSetBreak | sys/dev/usb/serial/uftdi.c:1374-1396 | A break toggle changes only the break bit of the remembered lcr and leaves the tracked status alone. |
| Softc.BreakKeepsLineSettings | sys/dev/usb/serial/uftdi.c:1381-1387 | A break-toggled lcr reads as the same line settings, with break as requested. |
| Softc.BreakOnOffRestores | sys/dev/usb/serial/uftdi.c:1381-1385 | Setting then clearing the break restores a remembered lcr that had it clear. |
| Softc.PreParam | sys/dev/usb/serial/uftdi.c:1601-1608 | Reports no error iff the driver's speed encoder accepts the speed, and otherwise ERANGE. |
| Softc.CfgParam | sys/dev/usb/serial/uftdi.c:1610-1622 | When the settings do not translate, nothing changes. Otherwise the remembered lcr becomes one that reads as the requested line settings. The tracked status is untouched either way. |
| Softc.BreakAfterConfig | sys/dev/usb/serial/uftdi.c:1610-1622 | After a reconfiguration, a break toggle keeps the configured line settings. Break on then off gives back the configured state. |
| Softc.StatusChange | sys/dev/usb/serial/uftdi.c:1307-1317 | Notifies iff the modem signals differ or the masked line status differs. It then remembers the new status. Otherwise the device is unchanged, and the lcr is never touched. |
| Softc.StatusChangeIdempotent | sys/dev/usb/serial/uftdi.c:1307-1317 | Reporting the same status again does not notify and changes nothing. |
| Softc.TrackCountsChanges | sys/dev/usb/serial/uftdi.c:1307-1317 | Over a series of buffers, the driver notifies exactly once per report that differs from the one before; the first report is compared with the tracked state. It ends up tracking a status equivalent to the last report, and the lcr is untouched. |
| Softc.FirstQuietReportIsSilent | sys/dev/usb/serial/uftdi.c:1307-1317 | Right after attach, a first report with no modem signals and a clear line status does not notify. |
| Softc.ReadCallback | sys/dev/usb/serial/uftdi.c:1262-1317 | A buffer shorter than a header delivers nothing and changes nothing. Otherwise it delivers the reference payload and notifies iff the reference status differs from the tracked one. On a notification the device remembers the reference status exactly, raw line-status bits included; a quiet report leaves the device unchanged. The lcr is never touched. |
| InputParsing.ReadData | sys/dev/usb/serial/uftdi.c:1266-1305 | Yields nothing iff the buffer is shorter than a 2-byte header. Otherwise the delivered payload is at most the buffer less one header. |
| InputParsing.ParseInput | sys/dev/usb/serial/uftdi.c:1266-1305 | The driver's loop computes exactly the reference reading `ReadData`, and yields nothing iff the buffer is shorter than a header. |
| InputParsing.WalkPackets | sys/dev/usb/serial/uftdi.c:1281-1294 | The header-and-payload walk goes through exactly the reference packets. It delivers their payloads in order, ORs their line-status bytes and RI bits, and ends on the last header. |
| InputParsing.ReadDataPayload | sys/dev/usb/serial/uftdi.c:1281-1294 | The report's payload is that of packets framed as the chip sends them (only the last one short). Re-sending those packets gives back the buffer, less at most one trailing byte. |
| InputParsing.ReadDataStatus | sys/dev/usb/serial/uftdi.c:1285-1303 | A line-status bit of the report is set iff some header has it, and RI is set iff some header has it. CTS, DSR and DCD are those of the last header. |
| InputParsing.DeframeLength | sys/dev/usb/serial/uftdi.c:1281-1294 | Headers plus payload account for every byte of the buffer except possibly one trailing byte. |
| InputParsing.DeframeWellFramed | sys/dev/usb/serial/uftdi.c:1287-1293 | No payload run exceeds max_packet_size - 2, and only the last one is short. |
| InputParsing.SerializeDeframe | sys/dev/usb/serial/uftdi.c:1281-1294 | Re-sending the packets of a buffer gives back the buffer, less at most one lone trailing byte. |
| InputParsing.DeframeSerialize | sys/dev/usb/serial/uftdi.c:1281-1294 | Walking the bytes of well-framed packets recovers exactly those packets. |
| InputParsing.LineOrBits | sys/dev/usb/serial/uftdi.c:1285 | A bit is set in the accumulated line status iff some header has it. |
| InputParsing.RiSeenAny | sys/dev/usb/serial/uftdi.c:1286-1287 | RI is accumulated iff some header carries it. |
| Registers.OutTagRoundTrip | sys/dev/usb/serial/uftdi.c:1233-1235 | The chip reads the output tag's length and port back as written, for a length below 64 and a port below 4. |
| OutputFraming.FillHeadered | sys/dev/usb/serial/uftdi.c:1228-1238 | The headered loop emits nothing iff the guard is already reached or the tty layer hands over nothing. A nonempty buffer carries fewer payload bytes than its length. The buffer never extends past the guard plus one 64-byte packet. |
| OutputFraming.FillHeaderedUnframes | sys/dev/usb/serial/uftdi.c:1228-1238 | Whatever the tty layer hands over, every headered buffer is a well-formed packet sequence for the port. Its payload is exactly the bytes taken from the pending output, in order. |
| OutputFraming.WriteData | sys/dev/usb/serial/uftdi.c:1223-1243 | A buffer is submitted iff bytes were taken. A headerless buffer is the taken bytes themselves, at most UFTDI_OBUFSIZE. A headered buffer ends within one packet past the guard. |
| OutputFraming.WriteCallbackAsWritten | sys/dev/usb/serial/uftdi.c:1223-1243 | With the guard as written, a buffer is submitted iff bytes were taken, and no more than are pending. A headerless buffer is the taken bytes themselves, at most UFTDI_OBUFSIZE. A headered buffer unframes to the taken bytes and ends at most 2109 bytes in, one packet past the guard. |
| OutputFraming.WriteCallback | sys/dev/usb/serial/uftdi.c:1223-1243 | With the corrected guard, a submitted buffer is nonempty and never exceeds UFTDI_OBUFSIZE. Headerless buffers are the taken bytes themselves. Headered ones unframe to them. |
| OutputFraming.GreedyFill | sys/dev/usb/serial/uftdi.c:1228-1238 | With a greedy tty layer the loop takes min(N, 63·P) of the N pending bytes, P being the packets the guard allows. The buffer holds those bytes plus one tag per started packet. |
| OutputFraming.GreedyWithinBuffer | sys/dev/usb/serial/uftdi.c:1228-1238 | With a greedy tty layer, even the guard as written takes at most 2016 bytes and stays within UFTDI_OBUFSIZE. |
| OutputFraming.HeaderedOverrun | sys/dev/usb/serial/uftdi.c:1230 | With the guard as written, a first chunk of 60 bytes followed by full ones builds a 2109-byte buffer, past UFTDI_OBUFSIZE. |
| OutputFraming.GreedyGuardsAgree | sys/dev/usb/serial/uftdi.c:1230 | From an offset that is a multiple of 64, and with a greedy tty layer, the written and corrected guards build the same buffer. |
| OutputFraming.GreedyCallbacksAgree | sys/dev/usb/serial/uftdi.c:1223-1243 | With a greedy tty layer the corrected write callback behaves exactly as the written one. |

## Left out

- USB transfer setup, submission, stall handling and the callbacks' state machines are bus I/O. The model keeps only the data and status logic inside `uftdi_write_callback` and `uftdi_read_callback`.
- The vendor requests that carry the baud words, the lcr and the flow selector to the chip are not modelled; they only marshal fields. This includes `uftdi_cfg_param` ORing the port number into the baud request's index word.
- The modem-control requests, the ioctl dispatch and start/stop/poll are left out, for the same reason.
- The probe/attach/detach code and the device-ID and JTAG tables are attach-time lookups over USB descriptors. Only attach's initial lcr is modelled (`Softc.Attached`).
- Locking and the config-thread serialization are concurrency, which this sequential model does not express.
- `uftdi_reg.h` and `sys/serial.h` are not part of this model. Their constants are restated in `Registers`, and the SER_* modem bits are four booleans.
- `ucom_get_data` and `ucom_put_data` (usb_serial.c) are not part of this model. How many bytes `ucom_get_data` hands over per call is the `caps` parameter.
- OutputFraming.WriteData: requires a header length of at most 1, the only values `DevTypes.DevTypeSetup` produces.
- OutputFraming.FillHeaderedUnframes: requires a port number below 4, since the tag holds two port bits. The headered generation (SIO) always has port 0.
- InputParsing.ParseInput: requires a maximum packet size of at least the 2-byte header. The USB stack guarantees this for bulk endpoints, and the driver does not check it.
- Baud.EncodeBaud: speeds and divisors are unbounded naturals rather than 32-bit. For speeds that pass the range check every intermediate value fits in 32 bits, so no wrap-around is lost.
- Baud.ChipDivisor gives no meaning to integral parts 0 and 1 with a nonzero fraction code, because the chip's behaviour for them is undocumented.

## Findings

| source | as written | input that shows it | evidently intended | confidence | as-written member | corrected member |
|---|---|---|---|---|---|---|
| sys/dev/usb/serial/uftdi.c:1437-1440 | The 232A roundoff table is `uint8_t`, so its entries -1, -2 and -3 are added as 255, 254 and 253. | 14400 bit/s on a 232A: divisor 1794 eighths, 13377 bit/s, rejected with ERANGE. | Subtract 1, 2 or 3 as the comment describes: divisor 1666, 14405 bit/s, accepted. | not executed | BaudFindings.StoredRoundoffRejects14400 | Baud.EncodeBaud |
| sys/dev/usb/serial/uftdi.c:1455-1460 | The range check admits speeds whose integral part needs 15 bits, which then collides with the fraction code. | 183 bit/s at 3 MHz: words 0x4009/0, which the chip reads as 9.5, so it runs at 315789 bit/s. | Reject any integral part above 14 bits (ERANGE). | not executed | BaudFindings.IntegralOverflowAt183 | Baud.EncodeBaud |
| sys/dev/usb/serial/uftdi.c:1511-1520 | An integral part of 1 is assumed to come with fraction .0 or .5; any other fraction is sent as .0, which means 1.5. | 2666666 bit/s on a 232R: divisor 1.125 sent as 1/0, so the chip runs at 2000000 bit/s. | Reject a divisor with integral part 1 and a fraction other than .0 or .5 (ERANGE). | not executed | BaudFindings.IntegralOneFraction | Baud.EncodeBaud |
| sys/dev/usb/serial/uftdi.c:1230 | The headered loop starts a packet whenever two bytes of room remain, but a packet can take 64. | The tty layer hands over 60 bytes first, then full chunks: the buffer reaches 2109 > 2048 bytes. | Start a packet only while a whole 64-byte packet still fits (guard 1985). | not executed | OutputFraming.HeaderedOverrun | OutputFraming.WriteCallback |

=== FILE: baud.dfy ===
/**
 * Baud-rate encoding: from a requested line speed to the two 16-bit words
 * (baud_lobits, baud_hibits) of the FTDI_SIO_SET_BAUD_RATE request.
 *
 * The fixed-table SIO chips pick one of ten speeds by index. All later
 * chips divide a 3 MHz (or 12 MHz) clock by a fixed-point divisor with a
 * 14-bit integral part and a 3-bit fraction; the chip's reading of those
 * bits (`ChipDivisor`) is the partner every encoder result is checked
 * against.
 */
module Baud {
  import opened Bits
  import opened Types
  import opened DevTypes

  /** The request words: baud_lobits goes to wValue, baud_hibits is ORed into wIndex. */
  datatype BaudBits = BaudBits(lo: nat, hi: nat)

  // ---------------------------------------------------------------------
  // Fixed-table encoder (SIO)
  // ---------------------------------------------------------------------

  /** The speeds an SIO chip supports, selected by their index. */
  const SioSpeeds: seq<nat> := [300, 600, 1200, 2400, 4800, 9600, 19200, 38400, 57600, 115200]

  /** `uftdi_sio_encode_baudrate`: exact lookup, ERANGE for any other speed. */
  function SioEncodeBaud(speed: nat): (r: Result<BaudBits>)
    ensures r.Ok? <==> speed in SioSpeeds
    ensures r.Err? ==> r.error == ERANGE
    ensures r.Ok? ==> r.value.hi == 0 && r.value.lo < |SioSpeeds| && SioSpeeds[r.value.lo] == speed
  {
    SioSearch(speed, 0)
  }

  /** The table scan from index `i` on. */
  function SioSearch(speed: nat, i: nat): (r: Result<BaudBits>)
    requires i <= |SioSpeeds|
    ensures r.Ok? <==> speed in SioSpeeds[i..]
    ensures r.Err? ==> r.error == ERANGE
    ensures r.Ok? ==> r.value.hi == 0 && i <= r.value.lo < |SioSpeeds| && SioSpeeds[r.value.lo] == speed
    decreases |SioSpeeds| - i
  {
    if i == |SioSpeeds| then Err(ERANGE)
    else if speed == SioSpeeds[i] then Ok(BaudBits(i, 0))
    else
      assert SioSpeeds[i..] == [SioSpeeds[i]] + SioSpeeds[i + 1..];
      SioSearch(speed, i + 1)
  }

  // ---------------------------------------------------------------------
  // Fractional-divisor encoder (all later chips)
  // ---------------------------------------------------------------------

  /** A baud clock and the flag bit that selects it in the request. */
  datatype Clock = Clock(hz: nat, flag: nat)

  const Clock3M := Clock(3000000, 0)
  const Clock12M := Clock(12000000, 0x2_0000)

  /** The 12 MHz clock is used when the chip has it and the speed is at least 1200. */
  function SelectClock(flags: DevFlags, speed: nat): (c: Clock)
    ensures c == Clock3M || c == Clock12M
    ensures c == Clock12M <==> flags.baudClk12M && speed >= 1200
  {
    if flags.baudClk12M && speed >= 1200 then Clock12M else Clock3M
  }

  /** The range check before dividing: clk >> 14 <= speed <= clk. */
  predicate Reachable(clk: Clock, speed: nat)
  {
    clk.hz / 0x4000 <= speed <= clk.hz
  }

  /** `uftdi_baud_within_tolerance`: the hardware speed is within 3% of the target. */
  predicate WithinTolerance(hw: nat, target: nat)
  {
    hw >= target * 100 / 103 && hw <= target * 100 / 97
  }

  /** What the tolerance test means without integer division. */
  lemma ToleranceMeaning(hw: nat, target: nat)
    ensures WithinTolerance(hw, target) <==> 100 * target <= 103 * hw + 102 && 97 * hw <= 100 * target
  {
  }

  /** A divisor in eighths of the chosen clock: the chip divides `clk.hz` by `d8 / 8`. */
  datatype Divisor = Divisor(clk: Clock, d8: nat)

  /** The speed a chip produces from a divisor. */
  function ChipSpeed(d: Divisor): (hz: nat)
    requires d.d8 > 0
  {
    d.clk.hz * 8 / d.d8
  }

  /**
   * The eighths the hardware fraction code stands for, indexed by code.
   * Codes 4 and 6 are 3/8 and 6/8, as the chip's eighths steps require;
   * the driver's comment on the table writes them as 0.325 and 0.725.
   */
  const FractionEighths: seq<nat> := [0, 4, 2, 1, 3, 5, 6, 7]

  /** The code the driver sends for a fraction of `i` eighths (`encoded_fraction`). */
  const EncodedFraction: seq<nat> := [0, 3, 2, 4, 1, 5, 6, 7]

  /** The 232A roundoff corrections, indexed by the 1/16ths nibble, as the comment describes them. */
  const Roundoff232a: seq<int> := [0, 1, 0, 1, 0, -1, 2, 1, 0, -1, -2, -3, 4, 3, 2, 1]

  /**
   * The offsets past the integral part, in sixteenths, of the divisors a
   * 232A can run at: fractions .0, .125, .25 and .5, and the next whole
   * divisor.
   */
  const Supported232a: seq<int> := [0, 2, 4, 8, 16]

  function Dist(a: int, b: int): (d: nat)
    ensures d == a - b || d == b - a
  {
    if a >= b then a - b else b - a
  }

  /** Offset `s` is not a better rounding of nibble `n` than `off`: farther away, or as far and not above. */
  predicate NoBetter(s: int, off: int, n: int)
  {
    Dist(off, n) < Dist(s, n) || (Dist(off, n) == Dist(s, n) && s <= off)
  }

  /** `off` is a supported offset nearest to the nibble `n`, ties going up. */
  predicate NearestSupported(off: int, n: int)
  {
    off in Supported232a &&
    NoBetter(0, off, n) && NoBetter(2, off, n) && NoBetter(4, off, n) &&
    NoBetter(8, off, n) && NoBetter(16, off, n)
  }

  /** Halving `d16` sixteenths to `d8` eighths lands on a 232A divisor nearest to it, ties going up. */
  predicate NearestRounding(d16: nat, d8: nat)
  {
    NearestSupported(2 * d8 - 16 * (d16 / 16), d16 % 16)
  }

  /**
   * The same table as the driver stores it: in a `uint8_t` array the
   * negative entries become 255, 254 and 253.
   */
  const Roundoff232aAsStored: seq<int> := [0, 1, 0, 1, 0, 255, 2, 1, 0, 255, 254, 253, 4, 3, 2, 1]

  /**
   * Round a divisor in sixteenths to eighths: a nibble of 1 is truncated,
   * the 232A adds its roundoff correction, later chips round half up.
   */
  function RoundDivisor(t: DevType, d16: nat, roundoff: seq<int>): (d8: nat)
    requires roundoff == Roundoff232a || roundoff == Roundoff232aAsStored
    requires d16 >= 16
    ensures d8 >= 8
    ensures d16 % 16 == 1 ==> 2 * d8 == d16 - 1 && d8 % 8 == 0
    ensures t != FT232A && d16 % 16 != 1 ==> d16 <= 2 * d8 <= d16 + 1
    ensures t == FT232A ==> d8 % 8 in {0, 1, 2, 4}
    ensures t == FT232A && roundoff == Roundoff232a ==> d16 - 3 <= 2 * d8 <= d16 + 4
    ensures 2 * d8 <= d16 + 255
  {
    var nibble := d16 % 16;
    if nibble == 1 then
      (d16 - d16 % 8) / 2
    else if t == FT232A then
      RoundWithTable(d16, roundoff)
    else
      (d16 + 1) / 2
  }

  /** The 232A rounding: add the nibble's roundoff correction, then halve. */
  function RoundWithTable(d16: nat, roundoff: seq<int>): (d8: nat)
    requires roundoff == Roundoff232a || roundoff == Roundoff232aAsStored
    requires d16 >= 16 && d16 % 16 != 1
    ensures d8 >= 8
    ensures d8 % 8 in {0, 1, 2, 4}
    ensures roundoff == Roundoff232a ==> d16 - 3 <= 2 * d8 <= d16 + 4
    ensures 2 * d8 <= d16 + 255
  {
    var nibble := d16 % 16;
    RoundoffNibble(nibble, roundoff);
    var m := nibble + roundoff[nibble];
    HalfOfSixteenths(d16 / 16, m);
    assert d16 + roundoff[nibble] == 16 * (d16 / 16) + m;
    (d16 + roundoff[nibble]) / 2
  }

  lemma HalfOfSixteenths(q: nat, m: nat)
    requires m % 2 == 0
    ensures (16 * q + m) / 2 == 8 * q + m / 2
    ensures (8 * q + m / 2) % 8 == (m / 2) % 8
    ensures 2 * ((16 * q + m) / 2) == 16 * q + m
  {
  }

  /** What one roundoff entry does to the nibble it corrects. */
  lemma RoundoffNibble(n: nat, roundoff: seq<int>)
    requires roundoff == Roundoff232a || roundoff == Roundoff232aAsStored
    requires n < 16 && n != 1
    ensures n + roundoff[n] >= 0 && (n + roundoff[n]) % 2 == 0
    ensures ((n + roundoff[n]) / 2) % 8 in {0, 1, 2, 4}
    ensures roundoff[n] < 0 ==> n >= 5
    ensures roundoff == Roundoff232a ==> -3 <= roundoff[n] <= 4
    ensures roundoff[n] <= 255
  {
    // One branch per nibble, so that each table entry is looked at on its own.
    assert n == 0 || 2 <= n <= 15;
    if n == 0 {} else if n == 2 {} else if n == 3 {} else if n == 4 {} else if n == 5 {}
    else if n == 6 {} else if n == 7 {} else if n == 8 {} else if n == 9 {} else if n == 10 {}
    else if n == 11 {} else if n == 12 {} else if n == 13 {} else if n == 14 {} else {}
  }

  /**
   * The table as commented moves every nibble but 1 to a nearest divisor
   * the 232A supports, ties going up.
   */
  lemma CommentedRoundoffNearest(n: nat)
    requires n < 16 && n != 1
    ensures NearestSupported(n + Roundoff232a[n], n)
  {
    // One branch per nibble, as in RoundoffNibble.
    assert n == 0 || 2 <= n <= 15;
    if n == 0 {} else if n == 2 {} else if n == 3 {} else if n == 4 {} else if n == 5 {}
    else if n == 6 {} else if n == 7 {} else if n == 8 {} else if n == 9 {} else if n == 10 {}
    else if n == 11 {} else if n == 12 {} else if n == 13 {} else if n == 14 {} else {}
  }

  /**
   * With the table as commented, a 232A divisor whose nibble is not 1 is
   * rounded to a nearest divisor the chip supports, ties going up.
   */
  lemma RoundDivisorNearest(d16: nat)
    requires d16 >= 16 && d16 % 16 != 1
    ensures NearestRounding(d16, RoundDivisor(FT232A, d16, Roundoff232a))
  {
    var n := d16 % 16;
    RoundoffNibble(n, Roundoff232a);
    var m := n + Roundoff232a[n];
    HalfOfSixteenths(d16 / 16, m);
    assert d16 + Roundoff232a[n] == 16 * (d16 / 16) + m;
    var d8 := RoundDivisor(FT232A, d16, Roundoff232a);
    assert d8 == RoundWithTable(d16, Roundoff232a) == (d16 + Roundoff232a[n]) / 2;
    assert 2 * d8 - 16 * (d16 / 16) == m;
    CommentedRoundoffNearest(n);
  }

  /**
   * Clock choice, range check, division, rounding and the tolerance check:
   * the part of `uftdi_encode_baudrate` before the divisor is re-packed.
   */
  function CheckedDivisor(t: DevType, flags: DevFlags, speed: nat, roundoff: seq<int>): (r: Result<Divisor>)
    requires roundoff == Roundoff232a || roundoff == Roundoff232aAsStored
    ensures !Reachable(SelectClock(flags, speed), speed) ==> r == Err(ERANGE)
    ensures r.Ok? <==>
      Reachable(SelectClock(flags, speed), speed) && WithinTolerance(ChipSpeed(Rounded(t, flags, speed, roundoff)), speed)
    ensures r.Err? ==> r.error == ERANGE
    ensures r.Ok? ==> r.value == Rounded(t, flags, speed, roundoff)
    ensures r.Ok? ==> r.value.clk == SelectClock(flags, speed) && Reachable(r.value.clk, speed)
    ensures r.Ok? ==> r.value.d8 >= 8 && r.value.d8 / 8 < 0x1_0000 && WithinTolerance(ChipSpeed(r.value), speed)
    ensures r.Ok? && t == FT232A ==> EncodedFraction[r.value.d8 % 8] <= 3
  {
    var clk := SelectClock(flags, speed);
    if !Reachable(clk, speed) then Err(ERANGE)
    else
      var d := Rounded(t, flags, speed, roundoff);
      if !WithinTolerance(ChipSpeed(d), speed) then Err(ERANGE)
      else Ok(d)
  }

  /**
   * The divisor the driver computes for a reachable speed, before the
   * tolerance check: the rounded quotient of the selected clock. Its
   * integral part always fits in 16 bits, though not always in 14.
   */
  function Rounded(t: DevType, flags: DevFlags, speed: nat, roundoff: seq<int>): (d: Divisor)
    requires roundoff == Roundoff232a || roundoff == Roundoff232aAsStored
    requires Reachable(SelectClock(flags, speed), speed)
    ensures d.clk == SelectClock(flags, speed)
    ensures d.d8 >= 8 && d.d8 / 8 < 0x1_0000
    ensures t == FT232A ==> EncodedFraction[d.d8 % 8] <= 3
    ensures d.d8 == RoundDivisor(t, Sixteenths(d.clk, speed), roundoff)
    ensures roundoff == Roundoff232a ==>
      Sixteenths(d.clk, speed) - 3 <= 2 * d.d8 <= Sixteenths(d.clk, speed) + 4
    ensures t != FT232A ==>
      Sixteenths(d.clk, speed) - 1 <= 2 * d.d8 <= Sixteenths(d.clk, speed) + 1
  {
    var clk := SelectClock(flags, speed);
    var d16 := Sixteenths(clk, speed);
    SixteenthsBelow(clk, speed);
    var d8 := RoundDivisor(t, d16, roundoff);
    assert t == FT232A ==> EncodedFraction[d8 % 8] <= 3 by {
      if t == FT232A {
        assert d8 % 8 in {0, 1, 2, 4};
      }
    }
    Divisor(clk, d8)
  }

  /**
   * The range check bounds the quotient: at the slowest reachable speed
   * (183 bit/s at 3 MHz, 732 bit/s at 12 MHz) it is 262295 sixteenths.
   */
  lemma SixteenthsBelow(clk: Clock, speed: nat)
    requires clk == Clock3M || clk == Clock12M
    requires Reachable(clk, speed)
    ensures Sixteenths(clk, speed) <= 262295
  {
    var slowest := clk.hz / 0x4000;
    DivAntitone(clk.hz * 16, speed, slowest);
    if clk == Clock3M {
      assert slowest == 183 && 48000000 / 183 == 262295;
    } else {
      assert slowest == 732 && 192000000 / 732 == 262295;
    }
  }

  /** Dividing by more gives no more. */
  lemma DivAntitone(a: nat, b: nat, c: nat)
    requires 0 < c <= b
    ensures a / b <= a / c
  {
    var q := a / b;
    assert q * b <= a;
    MulLe(c, b, q);
    assert q * c == c * q && q * b == b * q;
    DivAtLeast(a, c, q);
  }

  /** `(clk << 4) / speed`: the divisor with a 4-bit fraction. */
  function Sixteenths(clk: Clock, speed: nat): (d16: nat)
    requires clk == Clock3M || clk == Clock12M
    requires Reachable(clk, speed)
    ensures d16 >= 16
  {
    DivAtLeast(clk.hz * 16, speed, 16);
    clk.hz * 16 / speed
  }

  lemma DivAtLeast(a: nat, b: nat, q: nat)
    requires b > 0 && q * b <= a
    ensures a / b >= q
  {
    var k := a / b;
    assert a == k * b + a % b;
    if k < q {
      assert (k + 1) * b == k * b + b;
      MulLe(k + 1, q, b);
      assert false;
    }
  }

  lemma MulLe(x: nat, y: nat, b: nat)
    requires x <= y
    ensures x * b <= y * b
  {
  }

  /** The integral part as sent: 1.0 goes out as 0. */
  function SentIntegral(d8: nat): (i: nat)
  {
    if d8 / 8 == 1 && d8 % 8 == 0 then 0 else d8 / 8
  }

  /** The fraction (in eighths) as sent: with an integral part of 1 it is dropped. */
  function SentFraction(d8: nat): (f: nat)
    ensures f < 8
  {
    if d8 / 8 == 1 then 0 else d8 % 8
  }

  /**
   * Re-pack a divisor into the request words: integral part in bits 0-13,
   * fraction code in bits 14-16, clock flag in bit 17; 1.0 is sent as 0.0
   * and an integral part of 1 is sent with fraction code 0 (meaning 1.5).
   * Chips with baud bits in the high index byte get the upper word shifted
   * left by 8.
   */
  function Repack(d: Divisor, hindex: bool): (b: BaudBits)
    ensures b.lo < 0x1_0000 && b.hi < 0x1_0000
    ensures (d.clk == Clock3M || d.clk == Clock12M) && SentIntegral(d.d8) < 0x1_0000 ==>
      (if hindex then b.hi / 0x100 else b.hi) <= 3
    ensures hindex ==> b.hi % 0x100 == 0
  {
    var ef := EncodedFraction[SentFraction(d.d8)];
    var packed := Or(SentIntegral(d.d8), Or(ef * 0x4000, d.clk.flag));
    FractionTablesInverse(SentFraction(d.d8));
    PackedBelow(SentIntegral(d.d8), ef, d.clk);
    var lo := U16(packed);
    var hi := U16(packed / 0x1_0000);
    HighWord(hi);
    BaudBits(lo, if hindex then U16(hi * 0x100) else hi)
  }

  /** With a 16-bit integral part, the packed divisor stays below bit 18. */
  lemma PackedBelow(i: nat, ef: nat, clk: Clock)
    requires ef < 8
    ensures i < 0x1_0000 && (clk == Clock3M || clk == Clock12M) ==> Or(i, Or(ef * 0x4000, clk.flag)) < 0x4_0000
  {
    if i < 0x1_0000 && (clk == Clock3M || clk == Clock12M) {
      assert Shl(1, 18) == 0x4_0000 by {
        ShlBy4000(1);
        assert Shl(1, 16) == 4 * Shl(1, 14);
      }
      OrBelow(ef * 0x4000, clk.flag, 18);
      OrBelow(i, Or(ef * 0x4000, clk.flag), 18);
    }
  }

  /** Moving the high word into the high index byte keeps its value and clears the low byte. */
  lemma HighWord(hi: nat)
    requires hi < 0x1_0000
    ensures U16(hi * 0x100) % 0x100 == 0
    ensures hi <= 3 ==> U16(hi * 0x100) / 0x100 == hi
  {
    var k := hi * 0x100 / 0x1_0000;
    assert hi * 0x100 == k * 0x1_0000 + U16(hi * 0x100);
    assert k * 0x1_0000 == (k * 0x100) * 0x100;
  }

  /**
   * A divisor the request words can carry: its integral part fits in 14
   * bits, and an integral part of 1 comes with a fraction of .0 or .5.
   */
  predicate Representable(d: Divisor)
  {
    8 <= d.d8 && d.d8 / 8 <= 0x3fff && (d.d8 / 8 == 1 ==> d.d8 % 8 == 0 || d.d8 % 8 == 4)
  }

  /** The 3-bit fraction code the chip reads from the request words. */
  function FractionCode(b: BaudBits, hindex: bool): (code: nat)
    ensures code < 8
  {
    var hi := if hindex then b.hi / 0x100 else b.hi;
    (b.lo / 0x4000) % 4 + 4 * (hi % 2)
  }

  /**
   * The chip's reading of the request words: integral part from the low
   * 14 bits, fraction from the code, clock from bit 17. Integral 0 with
   * code 0 means 1.0 and integral 1 with code 0 means 1.5; the other codes
   * with those integral parts have no documented meaning.
   */
  function ChipDivisor(b: BaudBits, hindex: bool): (r: Option<Divisor>)
    ensures r.Some? ==> r.value.d8 >= 8
  {
    var hi := if hindex then b.hi / 0x100 else b.hi;
    var integral := b.lo % 0x4000;
    var code := FractionCode(b, hindex);
    var clk := if (hi / 2) % 2 == 1 then Clock12M else Clock3M;
    if integral == 0 then (if code == 0 then Some(Divisor(clk, 8)) else None)
    else if integral == 1 then (if code == 0 then Some(Divisor(clk, 12)) else None)
    else Some(Divisor(clk, integral * 8 + FractionEighths[code]))
  }

  /**
   * Re-packing is undone by the chip's reading whenever the integral part
   * fits in 14 bits and, for an integral part of 1, the fraction is .0 or .5.
   */
  lemma RepackRoundTrip(d: Divisor, hindex: bool)
    requires d.clk == Clock3M || d.clk == Clock12M
    requires Representable(d)
    ensures ChipDivisor(Repack(d, hindex), hindex) == Some(d)
    ensures FractionCode(Repack(d, hindex), hindex) == EncodedFraction[SentFraction(d.d8)]
  {
    var b := Repack(d, hindex);
    var frac' := SentFraction(d.d8);
    var ef := EncodedFraction[frac'];
    var f: nat := if d.clk == Clock12M then 1 else 0;
    RepackFields(d, hindex, ef, f);
    ChipReadsFields(b, hindex, SentIntegral(d.d8), ef, f);
    FractionTablesInverse(frac');
    ChipReadsBack(b, hindex, d, ef, f);
  }

  /** Fields that hold the sent integral part, fraction and clock read back as the divisor. */
  lemma ChipReadsBack(b: BaudBits, hindex: bool, d: Divisor, ef: nat, f: nat)
    requires d.clk == Clock3M || d.clk == Clock12M
    requires Representable(d)
    requires f == if d.clk == Clock12M then 1 else 0
    requires b.lo % 0x4000 == SentIntegral(d.d8)
    requires FractionCode(b, hindex) == ef && ef < 8 && FractionEighths[ef] == SentFraction(d.d8)
    requires ((if hindex then b.hi / 0x100 else b.hi) / 2) % 2 == f
    ensures ChipDivisor(b, hindex) == Some(d)
  {
  }

  /** The chip's fraction table undoes the driver's `encoded_fraction`. */
  lemma FractionTablesInverse(frac: nat)
    requires frac < 8
    ensures EncodedFraction[frac] < 8 && FractionEighths[EncodedFraction[frac]] == frac
  {
    // One branch per fraction, so that each table entry is looked at on its own.
    if frac == 0 {} else if frac == 1 {} else if frac == 2 {} else if frac == 3 {}
    else if frac == 4 {} else if frac == 5 {} else if frac == 6 {} else {}
  }

  /** The chip reads back the fields `RepackFields` put into the words. */
  lemma ChipReadsFields(b: BaudBits, hindex: bool, i: nat, ef: nat, f: nat)
    requires i < 0x4000 && ef < 8 && f < 2
    requires b.lo == i + (ef % 4) * 0x4000
    requires (if hindex then b.hi / 0x100 else b.hi) == ef / 4 + 2 * f
    ensures b.lo % 0x4000 == i
    ensures FractionCode(b, hindex) == ef
    ensures ((if hindex then b.hi / 0x100 else b.hi) / 2) % 2 == f
  {
    WordSplit(i, ef % 4, 0x4000);
  }

  /** Where the fields of a re-packed divisor land in the two request words. */
  lemma RepackFields(d: Divisor, hindex: bool, ef: nat, f: nat)
    requires d.clk == Clock3M || d.clk == Clock12M
    requires SentIntegral(d.d8) < 0x4000
    requires ef == EncodedFraction[SentFraction(d.d8)]
    requires f == if d.clk == Clock12M then 1 else 0
    ensures Repack(d, hindex).lo == SentIntegral(d.d8) + (ef % 4) * 0x4000
    ensures (if hindex then Repack(d, hindex).hi / 0x100 else Repack(d, hindex).hi) == ef / 4 + 2 * f
  {
    var i := SentIntegral(d.d8);
    var packed := Or(i, Or(ef * 0x4000, d.clk.flag));
    var lo, hi := i + (ef % 4) * 0x4000, ef / 4 + 2 * f;
    assert packed == lo + hi * 0x1_0000 by {
      PackedBits(i, ef, f, d.clk.flag);
    }
    assert packed % 0x1_0000 == lo && packed / 0x1_0000 == hi by {
      WordSplit(lo, hi, 0x1_0000);
    }
  }

  /** The three bit fields of the packed divisor do not overlap. */
  lemma PackedBits(integral: nat, ef: nat, f: nat, flag: nat)
    requires integral < 0x4000 && ef < 8 && f < 2 && flag == f * 0x2_0000
    ensures Or(integral, Or(ef * 0x4000, flag)) == (integral + (ef % 4) * 0x4000) + (ef / 4 + 2 * f) * 0x1_0000
  {
    HighFields(ef, f, flag);
    LowField(integral, ef + f * 8);
    FieldSplit(ef, f);
  }

  /** The fraction code at bit 14 and the clock bit at bit 17 do not overlap. */
  lemma HighFields(ef: nat, f: nat, flag: nat)
    requires ef < 8 && f < 2 && flag == f * 0x2_0000
    ensures Or(ef * 0x4000, flag) == (ef + f * 8) * 0x4000
  {
    assert flag == (f * 8) * 0x4000;
    ShiftedOr(ef, f * 8);
    ClockAboveFraction(ef, f);
  }

  /** Counted from bit 14, the clock bit sits just above the 3-bit fraction code. */
  lemma ClockAboveFraction(ef: nat, f: nat)
    requires ef < 8
    ensures Or(ef, f * 8) == ef + f * 8
  {
    ShlBy8(1);
    ShlBy8(f);
    OrDisjoint(ef, f, 3);
  }

  /** OR commutes with a shift by 14. */
  lemma ShiftedOr(a: nat, b: nat)
    ensures Or(a * 0x4000, b * 0x4000) == Or(a, b) * 0x4000
  {
    ShlBy4000(1);
    OrShifted(0, a, b, 14);
    ShlBy4000(a);
    ShlBy4000(b);
    ShlBy4000(Or(a, b));
  }

  /** The integral part lies below bit 14, where nothing else is ORed in. */
  lemma LowField(integral: nat, hi: nat)
    requires integral < 0x4000
    ensures Or(integral, hi * 0x4000) == integral + hi * 0x4000
  {
    ShlBy4000(1);
    OrDisjoint(integral, hi, 14);
    ShlBy4000(hi);
  }

  lemma ShlBy8(x: nat)
    ensures Shl(x, 3) == x * 8
  {
    ShlScales(x, 3);
    assert Shl(1, 3) == 8;
  }

  lemma ShlBy4000(x: nat)
    ensures Shl(x, 14) == x * 0x4000
  {
    ShlScales(x, 14);
    assert Shl(1, 14) == 0x4000;
  }

  /** The fraction code and clock bit, counted from bit 14, regrouped around bit 16. */
  lemma FieldSplit(ef: nat, f: nat)
    requires ef < 8 && f < 2
    ensures (ef + f * 8) * 0x4000 == (ef % 4) * 0x4000 + (ef / 4 + 2 * f) * 0x1_0000
  {
  }

  /** Splitting a two-field word at a power of two. */
  lemma WordSplit(lo: nat, hi: nat, m: nat)
    requires m == 0x4000 || m == 0x1_0000
    requires lo < m
    ensures (lo + hi * m) % m == lo && (lo + hi * m) / m == hi
  {
    if m == 0x4000 {
      assert (lo + hi * 0x4000) % 0x4000 == lo;
    } else {
      assert (lo + hi * 0x1_0000) % 0x1_0000 == lo;
    }
  }

  /**
   * `uftdi_encode_baudrate` exactly as the driver has it: the roundoff table
   * as stored, no check that the integral part fits 14 bits, and no check
   * that an integral part of 1 comes with a fraction of .0 or .5.
   */
  function EncodeBaudAsWritten(t: DevType, flags: DevFlags, speed: nat): (r: Result<BaudBits>)
    ensures !Reachable(SelectClock(flags, speed), speed) ==> r == Err(ERANGE)
    ensures r.Ok? <==> CheckedDivisor(t, flags, speed, Roundoff232aAsStored).Ok?
    ensures r.Err? ==> r.error == ERANGE
    ensures r.Ok? ==> r.value.lo < 0x1_0000 && (if flags.baudBitsHIndex then r.value.hi / 0x100 else r.value.hi) <= 3
    ensures r.Ok? && flags.baudBitsHIndex ==> r.value.hi % 0x100 == 0
    ensures r.Ok? && Representable(CheckedDivisor(t, flags, speed, Roundoff232aAsStored).value) ==>
      var d := CheckedDivisor(t, flags, speed, Roundoff232aAsStored).value;
      ChipDivisor(r.value, flags.baudBitsHIndex) == Some(d) && WithinTolerance(ChipSpeed(d), speed)
  {
    match CheckedDivisor(t, flags, speed, Roundoff232aAsStored)
    case Err(e) => Err(e)
    case Ok(d) =>
      if Representable(d) then RepackRoundTrip(d, flags.baudBitsHIndex); Ok(Repack(d, flags.baudBitsHIndex))
      else Ok(Repack(d, flags.baudBitsHIndex))
  }

  /**
   * The divisor encoder with the evident intent restored: the roundoff
   * table is signed, an integral part beyond 14 bits is out of range, and
   * so is an integral part of 1 with a fraction the chip cannot express.
   * Whatever it accepts, the chip reads back as a divisor on the selected
   * clock whose speed is within 3% of the request.
   */
  function EncodeBaud(t: DevType, flags: DevFlags, speed: nat): (r: Result<BaudBits>)
    ensures !Reachable(SelectClock(flags, speed), speed) ==> r == Err(ERANGE)
    ensures r.Ok? <==>
      CheckedDivisor(t, flags, speed, Roundoff232a).Ok? && Representable(CheckedDivisor(t, flags, speed, Roundoff232a).value)
    ensures r.Err? ==> r.error == ERANGE
    ensures r.Ok? ==> ChipDivisor(r.value, flags.baudBitsHIndex) == Some(CheckedDivisor(t, flags, speed, Roundoff232a).value)
    ensures r.Ok? ==>
      var c := ChipDivisor(r.value, flags.baudBitsHIndex);
      && c.Some?
      && c.value.clk == SelectClock(flags, speed)
      && WithinTolerance(ChipSpeed(c.value), speed)
    ensures r.Ok? && t == FT232A ==> FractionCode(r.value, flags.baudBitsHIndex) <= 3
  {
    match CheckedDivisor(t, flags, speed, Roundoff232a)
    case Err(e) => Err(e)
    case Ok(d) =>
      if !Representable(d) then Err(ERANGE)
      else
        AcceptedDivisor(t, d, flags.baudBitsHIndex);
        Ok(Repack(d, flags.baudBitsHIndex))
  }

  /** A divisor the corrected encoder accepts survives re-packing. */
  lemma AcceptedDivisor(t: DevType, d: Divisor, hindex: bool)
    requires d.clk == Clock3M || d.clk == Clock12M
    requires Representable(d)
    requires t == FT232A ==> EncodedFraction[d.d8 % 8] <= 3
    ensures ChipDivisor(Repack(d, hindex), hindex) == Some(d)
    ensures t == FT232A ==> FractionCode(Repack(d, hindex), hindex) <= 3
  {
    RepackRoundTrip(d, hindex);
  }

  /**
   * Every speed of the SIO table encodes on every divisor chip, with the
   * clock its capabilities select, both as written and corrected.
   */
  lemma SioSpeedsEncode(t: DevType, i: nat)
    requires i < |SioSpeeds|
    ensures EncodeBaudAsWritten(t, Capabilities(t), SioSpeeds[i]).Ok?
    ensures EncodeBaud(t, Capabilities(t), SioSpeeds[i]).Ok?
  {
    var flags := Capabilities(t);
    var speed := SioSpeeds[i];
    var clk := SelectClock(flags, speed);
    SioSpeedTolerated(clk, speed, t, Roundoff232aAsStored);
    SioSpeedTolerated(clk, speed, t, Roundoff232a);
  }

  /** One SIO speed on one clock: the rounded divisor is representable and within 3%. */
  lemma SioSpeedTolerated(clk: Clock, speed: nat, t: DevType, roundoff: seq<int>)
    requires clk == Clock3M || clk == Clock12M
    requires speed in SioSpeeds && (clk == Clock12M ==> speed >= 1200)
    requires roundoff == Roundoff232a || roundoff == Roundoff232aAsStored
    requires t == FT232A && roundoff == Roundoff232aAsStored ==> clk == Clock3M
    ensures Reachable(clk, speed)
    ensures var d := Divisor(clk, RoundDivisor(t, Sixteenths(clk, speed), roundoff));
      WithinTolerance(ChipSpeed(d), speed) && Representable(d)
  {
    assert Reachable(clk, speed);
    var d16 := Sixteenths(clk, speed);
    if clk == Clock12M && speed == 57600 {
      assert d16 == 3333;
      if t == FT232A {
        assert RoundDivisor(t, d16, roundoff) == 1666;
        assert ChipSpeed(Divisor(clk, 1666)) == 57623;
      } else {
        assert RoundDivisor(t, d16, roundoff) == 1667;
        assert ChipSpeed(Divisor(clk, 1667)) == 57588;
      }
    } else {
      SioQuotient(clk, speed);
      RoundEvenNibble(t, d16, roundoff);
    }
  }

  /**
   * The SIO speeds other than 57600 bit/s at 12 MHz divide either clock
   * with a nibble that every rounding rule halves exactly.
   */
  lemma SioQuotient(clk: Clock, speed: nat)
    requires clk == Clock3M || clk == Clock12M
    requires speed in SioSpeeds && (clk == Clock12M ==> speed >= 1200 && speed != 57600)
    ensures Reachable(clk, speed)
    ensures var d16 := Sixteenths(clk, speed);
      && d16 % 16 in {0, 1, 2, 4, 8}
      && 416 <= d16 <= 160000
      && WithinTolerance(ChipSpeed(Divisor(clk, d16 / 2)), speed)
  {
    assert Reachable(clk, speed);
    if clk == Clock3M {
      if speed == 300 {
        assert Sixteenths(clk, speed) == 160000 && ChipSpeed(Divisor(clk, 80000)) == 300;
      } else if speed == 600 {
        assert Sixteenths(clk, speed) == 80000 && ChipSpeed(Divisor(clk, 40000)) == 600;
      } else if speed == 1200 {
        assert Sixteenths(clk, speed) == 40000 && ChipSpeed(Divisor(clk, 20000)) == 1200;
      } else if speed == 2400 {
        assert Sixteenths(clk, speed) == 20000 && ChipSpeed(Divisor(clk, 10000)) == 2400;
      } else if speed == 4800 {
        assert Sixteenths(clk, speed) == 10000 && ChipSpeed(Divisor(clk, 5000)) == 4800;
      } else if speed == 9600 {
        assert Sixteenths(clk, speed) == 5000 && ChipSpeed(Divisor(clk, 2500)) == 9600;
      } else if speed == 19200 {
        assert Sixteenths(clk, speed) == 2500 && ChipSpeed(Divisor(clk, 1250)) == 19200;
      } else if speed == 38400 {
        assert Sixteenths(clk, speed) == 1250 && ChipSpeed(Divisor(clk, 625)) == 38400;
      } else if speed == 57600 {
        assert Sixteenths(clk, speed) == 833 && ChipSpeed(Divisor(clk, 416)) == 57692;
      } else if speed == 115200 {
        assert Sixteenths(clk, speed) == 416 && ChipSpeed(Divisor(clk, 208)) == 115384;
      }
    } else {
      if speed == 1200 {
        assert Sixteenths(clk, speed) == 160000 && ChipSpeed(Divisor(clk, 80000)) == 1200;
      } else if speed == 2400 {
        assert Sixteenths(clk, speed) == 80000 && ChipSpeed(Divisor(clk, 40000)) == 2400;
      } else if speed == 4800 {
        assert Sixteenths(clk, speed) == 40000 && ChipSpeed(Divisor(clk, 20000)) == 4800;
      } else if speed == 9600 {
        assert Sixteenths(clk, speed) == 20000 && ChipSpeed(Divisor(clk, 10000)) == 9600;
      } else if speed == 19200 {
        assert Sixteenths(clk, speed) == 10000 && ChipSpeed(Divisor(clk, 5000)) == 19200;
      } else if speed == 38400 {
        assert Sixteenths(clk, speed) == 5000 && ChipSpeed(Divisor(clk, 2500)) == 38400;
      } else if speed == 115200 {
        assert Sixteenths(clk, speed) == 1666 && ChipSpeed(Divisor(clk, 833)) == 115246;
      }
    }
  }

  /** Nibbles 0, 1, 2, 4 and 8 are halved exactly by every rounding rule. */
  lemma RoundEvenNibble(t: DevType, d16: nat, roundoff: seq<int>)
    requires roundoff == Roundoff232a || roundoff == Roundoff232aAsStored
    requires d16 >= 16 && d16 % 16 in {0, 1, 2, 4, 8}
    ensures RoundDivisor(t, d16, roundoff) == d16 / 2
  {
    var n := d16 % 16;
    assert n != 1 ==> roundoff[n] == 0;
    assert n != 1 ==> d16 % 2 == 0;
  }
}

=== FILE: baud_findings.dfy ===
/**
 * Where the divisor encoder as written departs from its own comments, with
 * an input that shows each departure, and the agreement of the corrected
 * encoder with the written one everywhere else.
 */
module BaudFindings {
  import opened Bits
  import opened Types
  import opened DevTypes
  import opened Baud

  /**
   * The `uint8_t` roundoff table adds 256 - k where the comment means to
   * subtract k: the fraction is the same, the integral part 16 larger.
   */
  lemma {:induction false} StoredRoundoffShift(d16: nat)
    requires d16 >= 16
    ensures d16 % 16 in {5, 9, 10, 11} ==>
      RoundDivisor(FT232A, d16, Roundoff232aAsStored) == RoundDivisor(FT232A, d16, Roundoff232a) + 128
    ensures d16 % 16 !in {5, 9, 10, 11} ==>
      RoundDivisor(FT232A, d16, Roundoff232aAsStored) == RoundDivisor(FT232A, d16, Roundoff232a)
  {
    var n := d16 % 16;
    if n != 1 {
      RoundoffNibble(n, Roundoff232a);
      RoundoffNibble(n, Roundoff232aAsStored);
      if n in {5, 9, 10, 11} {
        assert Roundoff232aAsStored[n] == Roundoff232a[n] + 256;
      } else {
        assert Roundoff232aAsStored[n] == Roundoff232a[n];
      }
    }
  }

  /** 14400 bit/s on a 232A: rejected as written, accepted once the table is signed. */
  lemma StoredRoundoffRejects14400()
    ensures EncodeBaudAsWritten(FT232A, NoFlags, 14400) == Err(ERANGE)
    ensures EncodeBaud(FT232A, NoFlags, 14400).Ok?
  {
    assert Sixteenths(Clock3M, 14400) == 3333;
    assert RoundDivisor(FT232A, 3333, Roundoff232aAsStored) == 1794;
    assert ChipSpeed(Divisor(Clock3M, 1794)) == 13377;
    assert RoundDivisor(FT232A, 3333, Roundoff232a) == 1666;
    assert ChipSpeed(Divisor(Clock3M, 1666)) == 14405;
  }

  /**
   * 183 bit/s at 3 MHz: the range check lets it through, the integral part
   * is 16393, and its bit 14 merges with the fraction code. The chip reads
   * 9.5 and runs at 315789 bit/s.
   */
  lemma IntegralOverflowAt183()
    ensures EncodeBaudAsWritten(FT232R, NoFlags, 183) == Ok(BaudBits(0x4009, 0))
    ensures ChipDivisor(BaudBits(0x4009, 0), false) == Some(Divisor(Clock3M, 76))
    ensures ChipSpeed(Divisor(Clock3M, 76)) == 315789
    ensures !WithinTolerance(315789, 183)
    ensures EncodeBaud(FT232R, NoFlags, 183) == Err(ERANGE)
  {
    ChipReadsOverflow();
    DivisorAt183(Roundoff232aAsStored);
    DivisorAt183(Roundoff232a);
    OverflowingRepack();
  }

  /** The chip reads integral 9 and fraction code 1 (four eighths) from the overflowed word. */
  lemma ChipReadsOverflow()
    ensures ChipDivisor(BaudBits(0x4009, 0), false) == Some(Divisor(Clock3M, 76))
  {
    assert 0x4009 % 0x4000 == 9 && 0x4009 / 0x4000 == 1;
    assert FractionCode(BaudBits(0x4009, 0), false) == 1;
    assert FractionEighths[1] == 4;
  }

  /** 183 bit/s passes the range and tolerance checks with a divisor of 16393.5. */
  lemma DivisorAt183(roundoff: seq<int>)
    requires roundoff == Roundoff232a || roundoff == Roundoff232aAsStored
    ensures CheckedDivisor(FT232R, NoFlags, 183, roundoff) == Ok(Divisor(Clock3M, 131148))
  {
    assert SelectClock(NoFlags, 183) == Clock3M;
    assert Sixteenths(Clock3M, 183) == 262295;
    assert RoundDivisor(FT232R, 262295, roundoff) == 131148;
    assert ChipSpeed(Divisor(Clock3M, 131148)) == 182;
  }

  /** Bit 14 of the integral part 16393 and fraction code 1 land on the same bit. */
  lemma OverflowingRepack()
    ensures Repack(Divisor(Clock3M, 131148), false) == BaudBits(0x4009, 0)
  {
    assert SentIntegral(131148) == 16393 && SentFraction(131148) == 4;
    assert Or(16384, 0) == 16384;
    assert Or(16393, 16384) == 16393 by {
      ShlBy4000(1);
      OrShifted(9, 1, 1, 14);
      assert Or(1, 1) == 1;
    }
  }

  /**
   * 2666666 bit/s on a 232R: the divisor rounds to 1.125, passes the
   * tolerance check, and is sent as integral 1 with fraction 0, which the
   * chip reads as 1.5: it runs at 2000000 bit/s.
   */
  lemma IntegralOneFraction()
    ensures EncodeBaudAsWritten(FT232R, NoFlags, 2666666) == Ok(BaudBits(1, 0))
    ensures ChipDivisor(BaudBits(1, 0), false) == Some(Divisor(Clock3M, 12))
    ensures ChipSpeed(Divisor(Clock3M, 12)) == 2000000
    ensures !WithinTolerance(2000000, 2666666)
    ensures EncodeBaud(FT232R, NoFlags, 2666666) == Err(ERANGE)
  {
    assert Sixteenths(Clock3M, 2666666) == 18;
    assert RoundDivisor(FT232R, 18, Roundoff232aAsStored) == 9;
    assert ChipSpeed(Divisor(Clock3M, 9)) == 2666666;
    assert SentIntegral(9) == 1 && SentFraction(9) == 0;
    assert Or(0, 0) == 0 && Or(1, 0) == 1;
    assert Repack(Divisor(Clock3M, 9), false) == BaudBits(1, 0);
  }

  /**
   * Outside the stored-table nibbles, whatever the corrected encoder
   * accepts the written one encodes identically.
   */
  lemma CorrectedAgreesWithWritten(t: DevType, flags: DevFlags, speed: nat)
    requires EncodeBaud(t, flags, speed).Ok?
    requires t == FT232A ==>
      Sixteenths(SelectClock(flags, speed), speed) % 16 !in {5, 9, 10, 11}
    ensures EncodeBaudAsWritten(t, flags, speed) == EncodeBaud(t, flags, speed)
  {
    var clk := SelectClock(flags, speed);
    var d16 := Sixteenths(clk, speed);
    if t == FT232A {
      StoredRoundoffShift(d16);
    }
    assert RoundDivisor(t, d16, Roundoff232aAsStored) == RoundDivisor(t, d16, Roundoff232a);
    assert CheckedDivisor(t, flags, speed, Roundoff232aAsStored) == CheckedDivisor(t, flags, speed, Roundoff232a);
  }

  /**
   * The converse: outside the stored-table nibbles, whatever the written
   * encoder accepts with a divisor the request words can carry, the
   * corrected one encodes identically. Together with
   * `CorrectedAgreesWithWritten`, the corrections change only the three
   * departures above.
   */
  lemma WrittenAgreesWithCorrected(t: DevType, flags: DevFlags, speed: nat)
    requires EncodeBaudAsWritten(t, flags, speed).Ok?
    requires t == FT232A ==>
      Sixteenths(SelectClock(flags, speed), speed) % 16 !in {5, 9, 10, 11}
    requires Representable(CheckedDivisor(t, flags, speed, Roundoff232aAsStored).value)
    ensures EncodeBaud(t, flags, speed) == EncodeBaudAsWritten(t, flags, speed)
  {
    var clk := SelectClock(flags, speed);
    var d16 := Sixteenths(clk, speed);
    if t == FT232A {
      StoredRoundoffShift(d16);
    }
    assert RoundDivisor(t, d16, Roundoff232aAsStored) == RoundDivisor(t, d16, Roundoff232a);
    assert CheckedDivisor(t, flags, speed, Roundoff232aAsStored) == CheckedDivisor(t, flags, speed, Roundoff232a);
  }
}

=== FILE: bits.dfy ===
/**
 * Unsigned integer helpers: left shifts and C's bitwise `|` on naturals.
 * The baud-rate encoder ORs fraction and clock bits into a divisor that may
 * already use those bit positions, so `|` is modelled bit for bit rather
 * than as addition.
 */
module Bits {

  /** `x << k` on unbounded naturals. */
  function Shl(x: nat, k: nat): (r: nat)
  {
    if k == 0 then x else 2 * Shl(x, k - 1)
  }

  function Min(a: nat, b: nat): (r: nat)
    ensures r <= a && r <= b
    ensures r == a || r == b
  {
    if a <= b then a else b
  }

  /** C's `a | b` on unsigned operands, bit by bit from the least significant. */
  function Or(a: nat, b: nat): (r: nat)
    decreases a + b
  {
    if a == 0 then b
    else if b == 0 then a
    else 2 * Or(a / 2, b / 2) + (if a % 2 == 1 || b % 2 == 1 then 1 else 0)
  }

  /** Truncation to an unsigned 16-bit word, as an assignment to `uint16_t` does. */
  function U16(x: nat): (r: nat)
    ensures r < 0x1_0000
    ensures x < 0x1_0000 ==> r == x
  {
    x % 0x1_0000
  }

  /** Shifting left multiplies by a power of two. */
  lemma {:induction false} ShlScales(x: nat, k: nat)
    ensures Shl(x, k) == x * Shl(1, k)
  {
    if k > 0 {
      ShlScales(x, k - 1);
      assert x * (2 * Shl(1, k - 1)) == 2 * (x * Shl(1, k - 1));
    }
  }

  /** Shifting left loses nothing. */
  lemma {:induction false} ShlZero(x: nat, k: nat)
    ensures Shl(x, k) == 0 <==> x == 0
  {
    if k > 0 {
      ShlZero(x, k - 1);
    }
  }

  /**
   * OR-ing a value that lives at bit `k` and above into a word leaves the
   * bits below `k` alone and ORs the upper parts.
   */
  lemma {:induction false} OrShifted(lo: nat, a: nat, b: nat, k: nat)
    requires lo < Shl(1, k)
    ensures Or(lo + Shl(a, k), Shl(b, k)) == lo + Shl(Or(a, b), k)
  {
    if k == 0 {
      assert lo == 0;
    } else {
      OrShifted(lo / 2, a, b, k - 1);
      ShlZero(a, k - 1);
      ShlZero(b, k - 1);
      OrZero(a, b);
      OrStep(lo, Shl(a, k - 1), Shl(b, k - 1), Shl(Or(a, b), k - 1));
    }
  }

  lemma OrZero(a: nat, b: nat)
    ensures b == 0 ==> Or(a, b) == a
    ensures a == 0 ==> Or(a, b) == b
  {
  }

  /** One step of `OrShifted`: peel the least significant bit off both operands. */
  lemma {:induction false} OrStep(lo: nat, ap: nat, bp: nat, orp: nat)
    requires Or(lo / 2 + ap, bp) == lo / 2 + orp
    requires bp == 0 ==> orp == ap
    requires lo == 0 && ap == 0 ==> orp == bp
    ensures Or(lo + 2 * ap, 2 * bp) == lo + 2 * orp
  {
    var x, y := lo + 2 * ap, 2 * bp;
    if x != 0 && y != 0 {
      assert x / 2 == lo / 2 + ap && x % 2 == lo % 2;
      assert y / 2 == bp && y % 2 == 0;
    }
  }

  /** OR-ing two values below bit `k` sets no bit at `k` or above. */
  lemma {:induction false} OrBelow(a: nat, b: nat, k: nat)
    requires a < Shl(1, k) && b < Shl(1, k)
    ensures Or(a, b) < Shl(1, k)
  {
    if a != 0 && b != 0 {
      assert k > 0;
      OrBelow(a / 2, b / 2, k - 1);
    }
  }

  /** A value below bit `k` ORed with a value at bit `k` and above is their sum. */
  lemma OrDisjoint(lo: nat, b: nat, k: nat)
    requires lo < Shl(1, k)
    ensures Or(lo, Shl(b, k)) == lo + Shl(b, k)
  {
    OrShifted(lo, 0, b, k);
    ShlZero(0, k);
  }
}

=== FILE: device.dfy ===
/**
 * The per-device state the protocol engine keeps in its softc: the last
 * line control word sent (so that a break toggle can resend it) and the
 * last modem and line status reported upwards.
 */
module Softc {
  import opened Types
  import opened Registers
  import opened DevTypes
  import opened LineParams
  import opened InputParsing

  /** One status report: the modem signals and the raw line-status byte. */
  datatype Status = Status(msr: ModemStatus, lsr: byte)

  /** `sc_last_lcr`, `sc_msr` and `sc_lsr`. */
  datatype Device = Device(lastLcr: bv16, msr: ModemStatus, lsr: byte)

  /**
   * The state after attach: the softc is zeroed, then the remembered lcr is
   * set to 8 data bits, no parity, 2 stop bits.
   */
  const Attached := Device(SetDataStopBits2 | SetDataParityNone | SetDataBits(8), NoModemSignals, 0)

  lemma AttachedLineControl()
    ensures DecodeLcr(Attached.lastLcr) == Some(LineControl(8, NoParity, true, false))
  {
  }

  /** The break bit of an lcr set or cleared, every other bit kept. */
  function WithBreak(lcr: bv16, on: bool): (r: bv16)
    ensures r & !SetBreak == lcr & !SetBreak
    ensures (r & SetBreak != 0) == on
  {
    if on then lcr | SetBreak else lcr & !SetBreak
  }

  /**
   * `uftdi_cfg_set_break`: update the remembered lcr; the updated value is
   * what goes to the chip.
   */
  function CfgSetBreak(d: Device, on: bool): (d': Device)
    ensures d'.msr == d.msr && d'.lsr == d.lsr
    ensures d'.lastLcr & !SetBreak == d.lastLcr & !SetBreak
    ensures (d'.lastLcr & SetBreak != 0) == on
  {
    d.(lastLcr := WithBreak(d.lastLcr, on))
  }

  /** The chip reads a break-toggled lcr as the same line settings with the break flag set as asked. */
  lemma BreakKeepsLineSettings(lcr: bv16, on: bool)
    requires DecodeLcr(lcr).Some?
    ensures DecodeLcr(WithBreak(lcr, on)) == Some(DecodeLcr(lcr).value.(brk := on))
  {
  }

  /** Setting and then clearing the break restores a remembered lcr that had it clear. */
  lemma BreakOnOffRestores(d: Device)
    requires d.lastLcr & SetBreak == 0
    ensures CfgSetBreak(CfgSetBreak(d, true), false) == d
  {
  }

  /** `uftdi_pre_param`: the error `uftdi_set_parm_soft` would return, if any. */
  function PreParam(p: Profile, t: Termios): (r: Option<Errno>)
    ensures r.None? <==> EncodeSpeed(p, t.ospeed).Ok?
    ensures r.Some? ==> r.value == ERANGE
  {
    match SetParmSoft(p, t)
    case Ok(_) => None
    case Err(e) => Some(e)
  }

  /**
   * `uftdi_cfg_param` as far as the softc goes: when the settings translate,
   * the remembered lcr becomes the new one, and nothing changes otherwise.
   */
  function CfgParam(p: Profile, d: Device, t: Termios): (d': Device)
    ensures PreParam(p, t).Some? ==> d' == d
    ensures PreParam(p, t).None? ==> DecodeLcr(d'.lastLcr) == Some(Requested(t))
    ensures d'.msr == d.msr && d'.lsr == d.lsr
  {
    match SetParmSoft(p, t)
    case Err(_) => d
    case Ok(cfg) => d.(lastLcr := cfg.lcr)
  }

  /**
   * A break toggled after a reconfiguration keeps the configured line
   * settings, and clearing it again gives back the configured lcr.
   */
  lemma BreakAfterConfig(p: Profile, d: Device, t: Termios, on: bool)
    requires PreParam(p, t).None?
    ensures DecodeLcr(CfgSetBreak(CfgParam(p, d, t), on).lastLcr) == Some(Requested(t).(brk := on))
    ensures CfgSetBreak(CfgSetBreak(CfgParam(p, d, t), true), false) == CfgParam(p, d, t)
  {
    var c := CfgParam(p, d, t);
    BreakKeepsLineSettings(c.lastLcr, on);
    assert DecodeLcr(c.lastLcr) == Some(Requested(t));
    assert c.lastLcr & SetBreak == 0;
    BreakOnOffRestores(c);
  }

  /** Two reports that the status check cannot tell apart. */
  predicate SameStatus(a: Status, b: Status)
  {
    a.msr == b.msr && a.lsr & LsrMask == b.lsr & LsrMask
  }

  function Tracked(d: Device): (s: Status)
  {
    Status(d.msr, d.lsr)
  }

  /** Whether a status check notified, and the device after it. */
  datatype StatusUpdate = StatusUpdate(notify: bool, dev: Device)

  /**
   * The status check at the end of `uftdi_read_callback`: notify and
   * remember the new status iff the modem signals differ or the masked line
   * status does.
   */
  function StatusChange(d: Device, s: Status): (u: StatusUpdate)
    ensures u.notify <==> !SameStatus(Tracked(d), s)
    ensures u.notify ==> Tracked(u.dev) == s
    ensures SameStatus(Tracked(u.dev), s)
    ensures u.dev.lastLcr == d.lastLcr
    ensures !u.notify ==> u.dev == d
  {
    if !SameStatus(Tracked(d), s) then
      StatusUpdate(true, d.(msr := s.msr, lsr := s.lsr))
    else
      StatusUpdate(false, d)
  }

  /** Reporting the same status twice notifies at most once and leaves the state as the first report did. */
  lemma StatusChangeIdempotent(d: Device, s: Status)
    ensures var u := StatusChange(d, s);
      StatusChange(u.dev, s) == StatusUpdate(false, u.dev)
  {
  }

  /**
   * The status checks of a series of buffers: the final device and how
   * many notifications went out.
   */
  function Track(d: Device, reports: seq<Status>): (r: (Device, nat))
    decreases |reports|
  {
    if reports == [] then (d, 0)
    else
      var u := StatusChange(d, reports[0]);
      var rest := Track(u.dev, reports[1..]);
      (rest.0, rest.1 + if u.notify then 1 else 0)
  }

  /** The number of reports that differ from the one before, the first compared with `prev`. */
  function Changes(prev: Status, reports: seq<Status>): (n: nat)
    decreases |reports|
  {
    if reports == [] then 0
    else (if SameStatus(prev, reports[0]) then 0 else 1) + Changes(reports[0], reports[1..])
  }

  lemma {:induction false} ChangesOfSame(a: Status, b: Status, reports: seq<Status>)
    requires SameStatus(a, b)
    ensures Changes(a, reports) == Changes(b, reports)
  {
  }

  /**
   * Over a series of buffers the driver notifies exactly once per report
   * that differs from the previous one (the first from the tracked state),
   * ends up tracking a status equivalent to the last report, and never
   * touches the remembered lcr.
   */
  lemma {:induction false} TrackCountsChanges(d: Device, reports: seq<Status>)
    decreases |reports|
    ensures Track(d, reports).1 == Changes(Tracked(d), reports)
    ensures reports != [] ==> SameStatus(Tracked(Track(d, reports).0), reports[|reports| - 1])
    ensures Track(d, reports).0.lastLcr == d.lastLcr
  {
    if reports != [] {
      var u := StatusChange(d, reports[0]);
      TrackCountsChanges(u.dev, reports[1..]);
      ChangesOfSame(Tracked(u.dev), reports[0], reports[1..]);
      if |reports| > 1 {
        assert reports[1..][|reports[1..]| - 1] == reports[|reports| - 1];
      }
    }
  }

  /**
   * Right after attach the tracked status is all zero, so a first report
   * of no modem signals and a clear line status does not notify.
   */
  lemma FirstQuietReportIsSilent()
    ensures StatusChange(Attached, Status(NoModemSignals, 0)).notify == false
  {
  }

  /**
   * The data and status part of `uftdi_read_callback`: parse the buffer,
   * deliver its payload and run the status check. A buffer shorter than a
   * header does neither.
   */
  method ReadCallback(d: Device, buf: seq<byte>, maxPacket: nat) returns (d': Device, delivered: seq<byte>, notify: bool)
    requires maxPacket >= IHdrSize
    ensures |buf| < IHdrSize ==> d' == d && delivered == [] && !notify
    ensures |buf| >= IHdrSize ==>
      var r := ReadData(buf, maxPacket).value;
      delivered == r.payload &&
      (notify <==> !SameStatus(Tracked(d), Status(r.msr, r.lsr))) &&
      SameStatus(Tracked(d'), Status(r.msr, r.lsr))
    ensures |buf| >= IHdrSize && notify ==>
      var r := ReadData(buf, maxPacket).value;
      Tracked(d') == Status(r.msr, r.lsr)
    ensures !notify ==> d' == d
    ensures d'.lastLcr == d.lastLcr
  {
    var r := ParseInput(buf, maxPacket);
    match r {
      case None =>
        d', delivered, notify := d, [], false;
      case Some(report) =>
        var u := StatusChange(d, Status(report.msr, report.lsr));
        d', delivered, notify := u.dev, report.payload, u.notify;
    }
  }
}

=== FILE: devtypes.dfy ===
/**
 * Chip-generation resolution: what the driver derives once, at attach time,
 * from the USB device release number (bcdDevice).
 */
module DevTypes {
  import opened Registers

  /** The hardware generations the driver tells apart (DEVT_*). */
  datatype DevType = SIO | FT232A | FT232B | FT2232D | FT232R | FT2232H | FT4232H | FT232H | FT230X

  /**
   * DEVF_* capability bits: baud bits in the high byte of the request index
   * word, and a 12 MHz baud clock.
   */
  datatype DevFlags = DevFlags(baudBitsHIndex: bool, baudClk12M: bool)

  const NoFlags := DevFlags(false, false)

  /**
   * The per-device fields `uftdi_devtype_setup` fills in. `assumed` is set
   * when an unknown release number was taken to be a 232R (the driver logs
   * a warning for it): a best-effort default, not a known mapping.
   */
  datatype Profile = Profile(
    bcdDevice: nat,
    devType: DevType,
    flags: DevFlags,
    hdrLen: nat,
    portNo: nat,
    assumed: bool)

  /** Release numbers with a fixed meaning (0x200 is ambiguous and resolved separately). */
  const KnownRevisions: map<nat, DevType> := map[
    0x400 := FT232B, 0x500 := FT2232D, 0x600 := FT232R, 0x700 := FT2232H,
    0x800 := FT4232H, 0x900 := FT232H, 0x1000 := FT230X]

  /** The capabilities that come with each generation. */
  function Capabilities(t: DevType): (flags: DevFlags)
  {
    match t
    case FT2232D | FT230X => DevFlags(true, false)
    case FT2232H | FT4232H | FT232H => DevFlags(true, true)
    case _ => NoFlags
  }

  /**
   * Resolve the generation. 0x200 is a 232B without EEPROM when the device
   * has no serial-number string, else a 232A; unknown codes below 0x200 are
   * the fixed-table SIO, unknown codes above it are assumed to be a 232R.
   */
  function DevTypeSetup(bcdDevice: nat, iSerialNumber: nat, ifaceNum: nat): (p: Profile)
    ensures p.bcdDevice == bcdDevice
    ensures bcdDevice == 0x200 ==> (p.devType == FT232B <==> iSerialNumber == 0)
    ensures bcdDevice == 0x200 ==> (p.devType == FT232A <==> iSerialNumber != 0)
    ensures bcdDevice in KnownRevisions ==> p.devType == KnownRevisions[bcdDevice]
    ensures p.devType == SIO <==> bcdDevice < 0x200
    ensures p.assumed <==> bcdDevice > 0x200 && bcdDevice !in KnownRevisions
    ensures p.assumed ==> p.devType == FT232R
    ensures p.flags == Capabilities(p.devType)
    ensures p.flags.baudClk12M <==> bcdDevice in {0x700, 0x800, 0x900}
    ensures p.flags.baudClk12M ==> p.flags.baudBitsHIndex
    ensures p.hdrLen == (if p.devType == SIO then 1 else 0)
    ensures p.portNo == (if p.flags.baudBitsHIndex then PitSioA + ifaceNum else 0)
    ensures p.portNo != 0 <==> p.flags.baudBitsHIndex
  {
    var multi := PitSioA + ifaceNum;
    match bcdDevice
    case 0x200 =>
      Profile(bcdDevice, if iSerialNumber == 0 then FT232B else FT232A, NoFlags, 0, 0, false)
    case 0x400 => Profile(bcdDevice, FT232B, NoFlags, 0, 0, false)
    case 0x500 => Profile(bcdDevice, FT2232D, DevFlags(true, false), 0, multi, false)
    case 0x600 => Profile(bcdDevice, FT232R, NoFlags, 0, 0, false)
    case 0x700 => Profile(bcdDevice, FT2232H, DevFlags(true, true), 0, multi, false)
    case 0x800 => Profile(bcdDevice, FT4232H, DevFlags(true, true), 0, multi, false)
    case 0x900 => Profile(bcdDevice, FT232H, DevFlags(true, true), 0, multi, false)
    case 0x1000 => Profile(bcdDevice, FT230X, DevFlags(true, false), 0, multi, false)
    case _ =>
      if bcdDevice < 0x200 then Profile(bcdDevice, SIO, NoFlags, 1, 0, false)
      else Profile(bcdDevice, FT232R, NoFlags, 0, 0, true)
  }
}

=== FILE: input.dfy ===
/**
 * Input parsing: the data part of `uftdi_read_callback`. A bulk-in buffer
 * is a run of packets, each a 2-byte status header (modem status, line
 * status) followed by up to `max_packet_size - 2` payload bytes.
 * `ucom_put_data` is modelled as appending to the delivered payload.
 */
module InputParsing {
  import opened Types
  import opened Registers
  import opened Bits

  /** UFTDI_IHDRSIZE: the size of an input packet header. */
  const IHdrSize: nat := 2

  /** One input packet: its header bytes and its payload. */
  datatype Packet = Packet(modem: byte, line: byte, payload: seq<byte>)

  /** The modem signals the driver reports upwards (SER_CTS, SER_DSR, SER_RI, SER_DCD). */
  datatype ModemStatus = ModemStatus(cts: bool, dsr: bool, ri: bool, dcd: bool)

  const NoModemSignals := ModemStatus(false, false, false, false)

  /** What one bulk-in buffer yields: payload for the tty layer and the status to track. */
  datatype InputReport = InputReport(payload: seq<byte>, msr: ModemStatus, lsr: byte)

  /**
   * The packets of a buffer as the driver walks it: while two bytes remain,
   * take a header and then up to `pktMax` payload bytes. A lone trailing
   * byte is ignored.
   */
  function Deframe(buf: seq<byte>, pktMax: nat): (pkts: seq<Packet>)
    decreases |buf|
    ensures pkts == [] <==> |buf| < IHdrSize
    ensures |pkts| <= |buf|
  {
    if |buf| < IHdrSize then []
    else
      var n := Min(|buf| - IHdrSize, pktMax);
      [Packet(buf[0], buf[1], buf[IHdrSize..IHdrSize + n])] + Deframe(buf[IHdrSize + n..], pktMax)
  }

  /** The bytes a chip sends for a run of packets. */
  function Serialize(pkts: seq<Packet>): (s: seq<byte>)
    ensures |s| >= IHdrSize * |pkts|
  {
    if pkts == [] then [] else [pkts[0].modem, pkts[0].line] + pkts[0].payload + Serialize(pkts[1..])
  }

  /** Packets as the chip sends them: no payload above `pktMax`, and only the last one short. */
  predicate WellFramed(pkts: seq<Packet>, pktMax: nat)
  {
    forall i :: 0 <= i < |pkts| ==>
      |pkts[i].payload| <= pktMax && (i < |pkts| - 1 ==> |pkts[i].payload| == pktMax)
  }

  /** The payload bytes of a run of packets, in order. */
  function Payload(pkts: seq<Packet>): (data: seq<byte>)
  {
    if pkts == [] then [] else pkts[0].payload + Payload(pkts[1..])
  }

  /** The OR of the line-status bytes of a run of packets, accumulated in order. */
  function LineOr(pkts: seq<Packet>): (lsr: byte)
  {
    if pkts == [] then 0 else LineOr(pkts[..|pkts| - 1]) | GetLsr(pkts[|pkts| - 1].line)
  }

  /** Whether the RI bit is set in the modem status of any packet, accumulated in order. */
  predicate RiSeen(pkts: seq<Packet>)
  {
    pkts != [] && (RiSeen(pkts[..|pkts| - 1]) || GetMsr(pkts[|pkts| - 1].modem) & RiMask != 0)
  }

  /** The modem signals after a run of packets: RI if any header had it, the rest from the last header. */
  function Signals(pkts: seq<Packet>): (msr: ModemStatus)
    requires pkts != []
  {
    var last := GetMsr(pkts[|pkts| - 1].modem);
    ModemStatus(last & CtsMask != 0, last & DsrMask != 0, RiSeen(pkts), last & RlsdMask != 0)
  }

  /**
   * The data part of `uftdi_read_callback` on a received buffer: nothing
   * for a buffer shorter than a header; otherwise the payload of all its
   * packets and the accumulated status.
   */
  function ReadData(buf: seq<byte>, maxPacket: nat): (r: Option<InputReport>)
    requires maxPacket >= IHdrSize
    ensures r.None? <==> |buf| < IHdrSize
    ensures r.Some? ==> |r.value.payload| <= |buf| - IHdrSize
  {
    var pkts := Deframe(buf, maxPacket - IHdrSize);
    if pkts == [] then None
    else
      DeframeLength(buf, maxPacket - IHdrSize);
      Some(InputReport(Payload(pkts), Signals(pkts), LineOr(pkts)))
  }

  /**
   * The payload of a report is that of packets which are framed as the
   * chip sends them and which re-send as the buffer, less a lone trailing
   * byte.
   */
  lemma ReadDataPayload(buf: seq<byte>, maxPacket: nat)
    requires maxPacket >= IHdrSize && |buf| >= IHdrSize
    ensures var pkts := Deframe(buf, maxPacket - IHdrSize);
      && ReadData(buf, maxPacket) == Some(InputReport(Payload(pkts), Signals(pkts), LineOr(pkts)))
      && WellFramed(pkts, maxPacket - IHdrSize)
      && |buf| - 1 <= |Serialize(pkts)| <= |buf| && Serialize(pkts) == buf[..|Serialize(pkts)|]
  {
    var pkts := Deframe(buf, maxPacket - IHdrSize);
    ReadDataOfWalk(buf, maxPacket, pkts);
    DeframeWellFramed(buf, maxPacket - IHdrSize);
    SerializeDeframe(buf, maxPacket - IHdrSize);
  }

  /**
   * The status of a report: a line-status bit is set iff some header has
   * it, RI is set iff some header has it, and CTS, DSR and DCD are those of
   * the last header.
   */
  lemma ReadDataStatus(buf: seq<byte>, maxPacket: nat, mask: byte, pkts: seq<Packet>)
    requires maxPacket >= IHdrSize && |buf| >= IHdrSize
    requires pkts == Deframe(buf, maxPacket - IHdrSize)
    ensures pkts != [] && ReadData(buf, maxPacket).Some?
    ensures var r := ReadData(buf, maxPacket).value;
      && (r.lsr & mask != 0 <==> exists i :: 0 <= i < |pkts| && pkts[i].line & mask != 0)
      && (r.msr.ri <==> exists i :: 0 <= i < |pkts| && GetMsr(pkts[i].modem) & RiMask != 0)
      && r.msr.cts == (GetMsr(pkts[|pkts| - 1].modem) & CtsMask != 0)
      && r.msr.dsr == (GetMsr(pkts[|pkts| - 1].modem) & DsrMask != 0)
      && r.msr.dcd == (GetMsr(pkts[|pkts| - 1].modem) & RlsdMask != 0)
  {
    ReadDataOfWalk(buf, maxPacket, pkts);
    LineOrBits(pkts, mask);
    RiSeenAny(pkts);
  }

  /** A buffer's packets and its payload account for all its bytes but a lone trailing one. */
  lemma {:induction false} DeframeLength(buf: seq<byte>, pktMax: nat)
    decreases |buf|
    ensures var pkts := Deframe(buf, pktMax);
      |buf| - 1 <= IHdrSize * |pkts| + |Payload(pkts)| <= |buf|
  {
    if |buf| >= IHdrSize {
      var n := Min(|buf| - IHdrSize, pktMax);
      var pkts := Deframe(buf, pktMax);
      DeframeLength(buf[IHdrSize + n..], pktMax);
      assert pkts[1..] == Deframe(buf[IHdrSize + n..], pktMax);
    }
  }

  /** Walking a buffer yields well-framed packets. */
  lemma {:induction false} DeframeWellFramed(buf: seq<byte>, pktMax: nat)
    decreases |buf|
    ensures WellFramed(Deframe(buf, pktMax), pktMax)
  {
    if |buf| >= IHdrSize {
      var n := Min(|buf| - IHdrSize, pktMax);
      var rest := Deframe(buf[IHdrSize + n..], pktMax);
      DeframeWellFramed(buf[IHdrSize + n..], pktMax);
      var pkts := Deframe(buf, pktMax);
      assert pkts[1..] == rest;
      forall i | 0 <= i < |pkts|
        ensures |pkts[i].payload| <= pktMax && (i < |pkts| - 1 ==> |pkts[i].payload| == pktMax)
      {
        if i > 0 {
          assert pkts[i] == rest[i - 1];
        } else if i < |pkts| - 1 {
          assert rest != [];
        }
      }
    }
  }

  /** Re-sending the packets of a buffer gives back the buffer, less a lone trailing byte. */
  lemma {:induction false} SerializeDeframe(buf: seq<byte>, pktMax: nat)
    decreases |buf|
    ensures var s := Serialize(Deframe(buf, pktMax));
      |buf| - 1 <= |s| <= |buf| && s == buf[..|s|]
  {
    if |buf| >= IHdrSize {
      var n := Min(|buf| - IHdrSize, pktMax);
      var tail := buf[IHdrSize + n..];
      SerializeDeframe(tail, pktMax);
      var pkts := Deframe(buf, pktMax);
      assert pkts[1..] == Deframe(tail, pktMax);
      var t := Serialize(Deframe(tail, pktMax));
      HeaderAndPayload(buf, n);
      assert Serialize(pkts) == buf[..IHdrSize + n] + t;
      PrefixThenRest(buf, IHdrSize + n, tail, t);
    }
  }

  /** A packet's header and payload bytes are the front of the buffer it came from. */
  lemma HeaderAndPayload(buf: seq<byte>, n: nat)
    requires IHdrSize + n <= |buf|
    ensures [buf[0], buf[1]] + buf[IHdrSize..IHdrSize + n] == buf[..IHdrSize + n]
  {
  }

  /** A prefix of the buffer followed by a prefix of the rest is a prefix of the buffer. */
  lemma PrefixThenRest(buf: seq<byte>, k: nat, tail: seq<byte>, t: seq<byte>)
    requires k <= |buf| && tail == buf[k..]
    requires |tail| - 1 <= |t| <= |tail| && t == tail[..|t|]
    ensures |buf| - 1 <= |buf[..k] + t| <= |buf|
    ensures buf[..k] + t == buf[..k + |t|]
  {
  }

  /** Walking the bytes of well-framed packets recovers those packets. */
  lemma {:induction false} DeframeSerialize(pkts: seq<Packet>, pktMax: nat)
    requires WellFramed(pkts, pktMax)
    decreases |pkts|
    ensures Deframe(Serialize(pkts), pktMax) == pkts
  {
    if pkts != [] {
      var t := Serialize(pkts[1..]);
      WellFramedTail(pkts, pktMax);
      DeframeSerialize(pkts[1..], pktMax);
      assert |pkts| > 1 ==> |pkts[0].payload| == pktMax;
      assert |pkts| == 1 ==> t == [];
      DeframePacket(pkts[0], t, pktMax);
    }
  }

  lemma WellFramedTail(pkts: seq<Packet>, pktMax: nat)
    requires pkts != [] && WellFramed(pkts, pktMax)
    ensures WellFramed(pkts[1..], pktMax)
  {
    forall i | 0 <= i < |pkts| - 1
      ensures |pkts[1..][i].payload| <= pktMax && (i < |pkts| - 2 ==> |pkts[1..][i].payload| == pktMax)
    {
      assert pkts[1..][i] == pkts[i + 1];
    }
  }

  /** A packet in front of more bytes is read back whole when it is full or nothing follows. */
  lemma DeframePacket(p: Packet, t: seq<byte>, pktMax: nat)
    requires |p.payload| <= pktMax && (t != [] ==> |p.payload| == pktMax)
    ensures Deframe([p.modem, p.line] + p.payload + t, pktMax) == [p] + Deframe(t, pktMax)
  {
    var s := [p.modem, p.line] + p.payload + t;
    var n := |p.payload|;
    assert Min(|s| - IHdrSize, pktMax) == n;
    assert s[IHdrSize..IHdrSize + n] == p.payload;
    assert s[IHdrSize + n..] == t;
  }

  /** Appending a packet appends its payload. */
  lemma {:induction false} PayloadAppend(pkts: seq<Packet>, p: Packet)
    decreases |pkts|
    ensures Payload(pkts + [p]) == Payload(pkts) + p.payload
  {
    if pkts != [] {
      assert (pkts + [p])[1..] == pkts[1..] + [p];
      PayloadAppend(pkts[1..], p);
    }
  }

  /** The accumulated line status has a bit of a mask set iff some header has it. */
  lemma {:induction false} LineOrBits(pkts: seq<Packet>, mask: byte)
    decreases |pkts|
    ensures LineOr(pkts) & mask != 0 <==> exists i :: 0 <= i < |pkts| && pkts[i].line & mask != 0
  {
    if pkts != [] {
      var init := pkts[..|pkts| - 1];
      LineOrBits(init, mask);
      OrMask(LineOr(init), pkts[|pkts| - 1].line, mask);
      ExistsSplit(pkts, init, mask);
    }
  }

  lemma OrMask(x: byte, y: byte, mask: byte)
    ensures (x | y) & mask != 0 <==> x & mask != 0 || y & mask != 0
  {
  }

  lemma ExistsSplit(pkts: seq<Packet>, init: seq<Packet>, mask: byte)
    requires pkts != [] && init == pkts[..|pkts| - 1]
    ensures (exists i :: 0 <= i < |pkts| && pkts[i].line & mask != 0) <==>
      (exists i :: 0 <= i < |init| && init[i].line & mask != 0) || pkts[|pkts| - 1].line & mask != 0
  {
    if exists i :: 0 <= i < |pkts| && pkts[i].line & mask != 0 {
      ExistsInInit(pkts, init, mask);
    }
    if exists i :: 0 <= i < |init| && init[i].line & mask != 0 {
      ExistsInWhole(pkts, init, mask);
    }
  }

  lemma ExistsInInit(pkts: seq<Packet>, init: seq<Packet>, mask: byte)
    requires pkts != [] && init == pkts[..|pkts| - 1]
    requires exists i :: 0 <= i < |pkts| && pkts[i].line & mask != 0
    ensures (exists i :: 0 <= i < |init| && init[i].line & mask != 0) || pkts[|pkts| - 1].line & mask != 0
  {
    var i :| 0 <= i < |pkts| && pkts[i].line & mask != 0;
    if i < |pkts| - 1 {
      assert init[i] == pkts[i];
    }
  }

  lemma ExistsInWhole(pkts: seq<Packet>, init: seq<Packet>, mask: byte)
    requires pkts != [] && init == pkts[..|pkts| - 1]
    requires exists i :: 0 <= i < |init| && init[i].line & mask != 0
    ensures exists i :: 0 <= i < |pkts| && pkts[i].line & mask != 0
  {
    var i :| 0 <= i < |init| && init[i].line & mask != 0;
    assert pkts[i] == init[i];
  }

  /** RI is reported iff some header of the buffer carries it. */
  lemma {:induction false} RiSeenAny(pkts: seq<Packet>)
    decreases |pkts|
    ensures RiSeen(pkts) <==> exists i :: 0 <= i < |pkts| && GetMsr(pkts[i].modem) & RiMask != 0
  {
    if pkts != [] {
      var init := pkts[..|pkts| - 1];
      RiSeenAny(init);
      if exists i :: 0 <= i < |pkts| && GetMsr(pkts[i].modem) & RiMask != 0 {
        var i :| 0 <= i < |pkts| && GetMsr(pkts[i].modem) & RiMask != 0;
        if i < |pkts| - 1 {
          assert init[i] == pkts[i];
        }
      }
      if exists i :: 0 <= i < |init| && GetMsr(init[i].modem) & RiMask != 0 {
        var i :| 0 <= i < |init| && GetMsr(init[i].modem) & RiMask != 0;
        assert pkts[i] == init[i];
      }
    }
  }

  /** One step of the walk, started at offset `at` of the buffer and ending at offset `next`. */
  lemma DeframeAt(buf: seq<byte>, at: nat, pktMax: nat, next: nat, pkt: Packet)
    requires at + IHdrSize <= |buf|
    requires next == at + IHdrSize + Min(|buf| - at - IHdrSize, pktMax)
    requires pkt == Packet(buf[at], buf[at + 1], buf[at + IHdrSize..next])
    ensures Deframe(buf[at..], pktMax) == [pkt] + Deframe(buf[next..], pktMax)
  {
    var b := buf[at..];
    assert b[IHdrSize..next - at] == buf[at + IHdrSize..next];
    assert b[next - at..] == buf[next..];
  }

  /** What the loop's ghost bookkeeping needs from one step of the walk. */
  lemma WalkStep(buf: seq<byte>, pktMax: nat, done: seq<Packet>, at: nat, next: nat, pkt: Packet)
    requires at + IHdrSize <= |buf|
    requires next == at + IHdrSize + Min(|buf| - at - IHdrSize, pktMax)
    requires pkt == Packet(buf[at], buf[at + 1], buf[at + IHdrSize..next])
    requires Deframe(buf, pktMax) == done + Deframe(buf[at..], pktMax)
    ensures Deframe(buf, pktMax) == (done + [pkt]) + Deframe(buf[next..], pktMax)
    ensures Payload(done + [pkt]) == Payload(done) + pkt.payload
  {
    DeframeAt(buf, at, pktMax, next, pkt);
    var later := Deframe(buf[next..], pktMax);
    assert done + ([pkt] + later) == (done + [pkt]) + later;
    PayloadAppend(done, pkt);
  }

  lemma ReadDataOfWalk(buf: seq<byte>, maxPacket: nat, done: seq<Packet>)
    requires maxPacket >= IHdrSize && done == Deframe(buf, maxPacket - IHdrSize) && done != []
    ensures ReadData(buf, maxPacket) == Some(InputReport(Payload(done), Signals(done), LineOr(done)))
  {
  }

  /** The status folds after one more packet. */
  lemma FoldsAppend(done: seq<Packet>, pkt: Packet)
    ensures LineOr(done + [pkt]) == LineOr(done) | GetLsr(pkt.line)
    ensures RiSeen(done + [pkt]) == (RiSeen(done) || GetMsr(pkt.modem) & RiMask != 0)
    ensures (done + [pkt])[|done|] == pkt
  {
    assert (done + [pkt])[..|done|] == done;
  }

  /** Everything the walk keeps track of, carried over one packet. */
  lemma WalkAdvance(buf: seq<byte>, pktMax: nat, done: seq<Packet>, at: nat, next: nat, pkt: Packet,
                    data: seq<byte>, lsr: byte, ri: bool)
    requires at + IHdrSize <= |buf|
    requires next == at + IHdrSize + Min(|buf| - at - IHdrSize, pktMax)
    requires pkt == Packet(buf[at], buf[at + 1], buf[at + IHdrSize..next])
    requires Deframe(buf, pktMax) == done + Deframe(buf[at..], pktMax)
    requires data == Payload(done) && lsr == LineOr(done) && ri == RiSeen(done)
    ensures Deframe(buf, pktMax) == (done + [pkt]) + Deframe(buf[next..], pktMax)
    ensures data + pkt.payload == Payload(done + [pkt])
    ensures lsr | GetLsr(pkt.line) == LineOr(done + [pkt])
    ensures (ri || GetMsr(pkt.modem) & RiMask != 0) == RiSeen(done + [pkt])
    ensures (done + [pkt])[|done|].modem == pkt.modem
  {
    WalkStep(buf, pktMax, done, at, next, pkt);
    FoldsAppend(done, pkt);
  }

  /**
   * The loop of `uftdi_read_callback` over a received buffer of a bulk-in
   * endpoint with packet size `maxPacket`. It delivers every payload byte,
   * in order, ORs the line status and RI over all headers and takes CTS,
   * DSR and DCD from the last header.
   */
  method ParseInput(buf: seq<byte>, maxPacket: nat) returns (r: Option<InputReport>)
    requires maxPacket >= IHdrSize
    ensures r == ReadData(buf, maxPacket)
    ensures r.None? <==> |buf| < IHdrSize
  {
    if |buf| < IHdrSize {
      return None;
    }
    var data, lsr, ri, hdr0 := WalkPackets(buf, maxPacket - IHdrSize);
    ReadDataOfWalk(buf, maxPacket, Deframe(buf, maxPacket - IHdrSize));
    var msr := GetMsr(hdr0);
    r := Some(InputReport(data, ModemStatus(msr & CtsMask != 0, msr & DsrMask != 0, ri, msr & RlsdMask != 0), lsr));
  }

  /**
   * The header-and-payload walk itself: it goes through exactly the packets
   * of the reference reading and ends on the last header.
   */
  method WalkPackets(buf: seq<byte>, pktMax: nat) returns (data: seq<byte>, lsr: byte, ri: bool, hdr0: byte)
    ensures data == Payload(Deframe(buf, pktMax))
    ensures lsr == LineOr(Deframe(buf, pktMax)) && ri == RiSeen(Deframe(buf, pktMax))
    ensures |buf| >= IHdrSize ==> hdr0 == Deframe(buf, pktMax)[|Deframe(buf, pktMax)| - 1].modem
  {
    ghost var done: seq<Packet> := [];
    lsr, ri, hdr0, data := 0, false, 0, [];
    var offset: nat := 0;
    var remaining: nat := |buf|;
    assert buf[offset..] == buf;
    while remaining >= IHdrSize
      invariant offset + remaining == |buf|
      invariant Deframe(buf, pktMax) == done + Deframe(buf[offset..], pktMax)
      invariant data == Payload(done)
      invariant lsr == LineOr(done)
      invariant ri == RiSeen(done)
      invariant done != [] ==> hdr0 == done[|done| - 1].modem
      decreases remaining
    {
      offset, remaining, data, lsr, ri, hdr0, done := ReadPacket(buf, pktMax, offset, remaining, data, lsr, ri, done);
    }
    assert Deframe(buf[offset..], pktMax) == [];
    assert done == Deframe(buf, pktMax);
  }

  /**
   * One turn of the walk: consume a header at `offset`, fold its status
   * bytes in, then deliver up to `pktMax` payload bytes.
   */
  method ReadPacket(buf: seq<byte>, pktMax: nat, offset: nat, remaining: nat,
                    data: seq<byte>, lsr: byte, ri: bool, ghost done: seq<Packet>)
    returns (offset': nat, remaining': nat, data': seq<byte>, lsr': byte, ri': bool, hdr0: byte, ghost done': seq<Packet>)
    requires offset + remaining == |buf| && remaining >= IHdrSize
    requires Deframe(buf, pktMax) == done + Deframe(buf[offset..], pktMax)
    requires data == Payload(done) && lsr == LineOr(done) && ri == RiSeen(done)
    ensures offset' + remaining' == |buf| && remaining' < remaining
    ensures Deframe(buf, pktMax) == done' + Deframe(buf[offset'..], pktMax)
    ensures data' == Payload(done') && lsr' == LineOr(done') && ri' == RiSeen(done')
    ensures done' != [] && hdr0 == done'[|done'| - 1].modem
  {
    hdr0 := buf[offset];
    var hdr1 := buf[offset + 1];
    offset' := offset + IHdrSize;
    remaining' := remaining - IHdrSize;
    lsr' := lsr | GetLsr(hdr1);
    ri' := ri;
    if GetMsr(hdr0) & RiMask != 0 {
      ri' := true;
    }
    ghost var chunk := buf[offset'..offset' + Min(remaining', pktMax)];
    offset', remaining', data' := DeliverPayload(buf, pktMax, offset', remaining', data);
    ghost var pkt := Packet(hdr0, hdr1, chunk);
    WalkAdvance(buf, pktMax, done, offset, offset', pkt, data, lsr, ri);
    done' := done + [pkt];
  }

  /** The payload part of one turn: hand up to `pktMax` bytes after the header to the tty layer. */
  method DeliverPayload(buf: seq<byte>, pktMax: nat, offset: nat, remaining: nat, data: seq<byte>)
    returns (offset': nat, remaining': nat, data': seq<byte>)
    requires offset + remaining == |buf|
    ensures offset' + remaining' == |buf|
    ensures offset' == offset + Min(remaining, pktMax)
    ensures data' == data + buf[offset..offset']
  {
    offset', remaining', data' := offset, remaining, data;
    var pktlen := Min(remaining, pktMax);
    if pktlen != 0 {
      data' := data + buf[offset..offset + pktlen];
      offset' := offset + pktlen;
      remaining' := remaining - pktlen;
    }
  }
}

=== FILE: lineparams.dfy ===
/**
 * Line-parameter translation (`uftdi_set_parm_soft`): from the termios
 * settings to the baud words, the line control word (lcr) and the flow
 * control selector with its XON/XOFF characters.
 */
module LineParams {
  import opened Types
  import opened Registers
  import opened DevTypes
  import opened Baud

  datatype CharSize = CS5 | CS6 | CS7 | CS8

  /**
   * The termios fields the driver reads: output speed, CSTOPB, PARENB,
   * PARODD, CSIZE and CRTSCTS from c_cflag, IXON and IXOFF from c_iflag,
   * and the VSTART/VSTOP characters.
   */
  datatype Termios = Termios(
    ospeed: nat,
    cstopb: bool,
    parenb: bool,
    parodd: bool,
    csize: CharSize,
    crtscts: bool,
    ixon: bool,
    ixoff: bool,
    vstart: byte,
    vstop: byte)

  /** `struct uftdi_param_config`: what one reconfiguration sends to the chip. */
  datatype ParamConfig = ParamConfig(
    baudLo: nat,
    baudHi: nat,
    lcr: bv16,
    vStart: byte,
    vStop: byte,
    vFlow: byte)

  datatype Parity = NoParity | OddParity | EvenParity

  /** The line settings an lcr word stands for. */
  datatype LineControl = LineControl(dataBits: bv16, parity: Parity, twoStopBits: bool, brk: bool)

  function CharBits(c: CharSize): (n: bv16)
  {
    match c
    case CS5 => 5
    case CS6 => 6
    case CS7 => 7
    case CS8 => 8
  }

  /** The line settings a termios record asks for. */
  function Requested(t: Termios): (lc: LineControl)
  {
    LineControl(
      CharBits(t.csize),
      if !t.parenb then NoParity else if t.parodd then OddParity else EvenParity,
      t.cstopb,
      false)
  }

  /**
   * The chip's reading of an lcr word: data bits in the low byte, parity in
   * bits 8-10, stop bits in bits 11-13, break in bit 14. Codes the driver
   * never sends (mark/space parity, 1.5 stop bits) read as None here.
   */
  function DecodeLcr(lcr: bv16): (r: Option<LineControl>)
  {
    var parity := (lcr >> 8) & 7;
    var stop := (lcr >> 11) & 7;
    if parity > 2 || (stop != 0 && stop != 2) || lcr & 0x8000 != 0 then None
    else Some(LineControl(
      lcr & 0xff,
      if parity == 0 then NoParity else if parity == 1 then OddParity else EvenParity,
      stop == 2,
      lcr & SetBreak != 0))
  }

  /**
   * The speed encoder for the chip, as the driver calls it: the fixed table
   * on SIO, the divisor encoder as written otherwise.
   */
  function EncodeSpeed(p: Profile, speed: nat): (r: Result<BaudBits>)
    ensures r.Err? ==> r.error == ERANGE
    ensures p.devType == SIO ==> (r.Ok? <==> speed in SioSpeeds)
    ensures p.devType == SIO && r.Ok? ==> r.value.hi == 0 && r.value.lo < |SioSpeeds| && SioSpeeds[r.value.lo] == speed
    ensures p.devType != SIO ==> (r.Ok? <==> CheckedDivisor(p.devType, p.flags, speed, Roundoff232aAsStored).Ok?)
    ensures p.devType != SIO && r.Ok? ==> (if p.flags.baudBitsHIndex then r.value.hi / 0x100 else r.value.hi) <= 3
    ensures p.devType != SIO && r.Ok? && Representable(CheckedDivisor(p.devType, p.flags, speed, Roundoff232aAsStored).value) ==>
      var c := ChipDivisor(r.value, p.flags.baudBitsHIndex);
      c.Some? && WithinTolerance(ChipSpeed(c.value), speed)
  {
    if p.devType == SIO then SioEncodeBaud(speed) else EncodeBaudAsWritten(p.devType, p.flags, speed)
  }

  /** Every speed of the SIO table configures on every chip, with its own capabilities. */
  lemma TableSpeedsConfigure(p: Profile, t: Termios)
    requires p.flags == Capabilities(p.devType)
    requires t.ospeed in SioSpeeds
    ensures SetParmSoft(p, t).Ok?
  {
    if p.devType != SIO {
      var i :| 0 <= i < |SioSpeeds| && SioSpeeds[i] == t.ospeed;
      SioSpeedsEncode(p.devType, i);
    }
  }

  /** The lcr for a termios record: stop bits, then parity, then character size. */
  function LineControlWord(t: Termios): (lcr: bv16)
    ensures DecodeLcr(lcr) == Some(Requested(t))
  {
    var stop := if t.cstopb then SetDataStopBits2 else SetDataStopBits1;
    var parity :=
      if t.parenb then (if t.parodd then SetDataParityOdd else SetDataParityEven)
      else SetDataParityNone;
    stop | parity | SetDataBits(CharBits(t.csize))
  }

  /** The flow-control part of a config: selector, start and stop characters. */
  datatype Flow = Flow(vFlow: byte, vStart: byte, vStop: byte)

  /**
   * The flow selector with its characters, starting from a zeroed config:
   * RTS/CTS first, then XON/XOFF with VSTART/VSTOP, else none.
   */
  function FlowControl(t: Termios): (f: Flow)
    ensures f.vFlow == RtsCtsHs <==> t.crtscts
    ensures f.vFlow == XonXoffHs <==> !t.crtscts && (t.ixon || t.ixoff)
    ensures f.vFlow == DisableFlowCtrl <==> !t.crtscts && !t.ixon && !t.ixoff
    ensures f.vFlow == XonXoffHs ==> f.vStart == t.vstart && f.vStop == t.vstop
    ensures f.vFlow != XonXoffHs ==> f.vStart == 0 && f.vStop == 0
  {
    if t.crtscts then Flow(RtsCtsHs, 0, 0)
    else if t.ixon || t.ixoff then Flow(XonXoffHs, t.vstart, t.vstop)
    else Flow(DisableFlowCtrl, 0, 0)
  }

  /**
   * `uftdi_set_parm_soft`: start from an all-zero config, fail with the
   * speed encoder's error, else build the lcr from stop bits, parity and
   * character size and pick the flow control.
   */
  function SetParmSoft(p: Profile, t: Termios): (r: Result<ParamConfig>)
    ensures r.Err? <==> EncodeSpeed(p, t.ospeed).Err?
    ensures r.Err? ==> r.error == ERANGE
    ensures r.Ok? ==> BaudBits(r.value.baudLo, r.value.baudHi) == EncodeSpeed(p, t.ospeed).value
    ensures r.Ok? ==> DecodeLcr(r.value.lcr) == Some(Requested(t))
    ensures r.Ok? ==> (r.value.vFlow == RtsCtsHs <==> t.crtscts)
    ensures r.Ok? ==> (r.value.vFlow == XonXoffHs <==> !t.crtscts && (t.ixon || t.ixoff))
    ensures r.Ok? ==> (r.value.vFlow == DisableFlowCtrl <==> !t.crtscts && !t.ixon && !t.ixoff)
    ensures r.Ok? && r.value.vFlow == XonXoffHs ==> r.value.vStart == t.vstart && r.value.vStop == t.vstop
    ensures r.Ok? && r.value.vFlow != XonXoffHs ==> r.value.vStart == 0 && r.value.vStop == 0
  {
    match EncodeSpeed(p, t.ospeed)
    case Err(e) => Err(e)
    case Ok(baud) =>
      var flow := FlowControl(t);
      Ok(ParamConfig(baud.lo, baud.hi, LineControlWord(t), flow.vStart, flow.vStop, flow.vFlow))
  }
}

=== FILE: output.dfy ===
/**
 * Output framing: the data part of `uftdi_write_callback`. The tty layer's
 * `ucom_get_data` is modelled as taking bytes from the front of the pending
 * output; how many it hands over per call beyond the requested maximum is a
 * parameter (`caps`), since that depends on code outside this model.
 */
module OutputFraming {
  import opened Types
  import opened Registers
  import opened Bits
  import opened DevTypes

  /** UFTDI_OBUFSIZE: the size of one bulk-out transfer buffer. */
  const OBufSize: nat := 2048
  /** UFTDI_OPKTSIZE: the chip's output packet size, header included. */
  const OPktSize: nat := 64

  /**
   * How many bytes one `ucom_get_data` call hands over when asked for at
   * most `want`: never more than is pending, and never more than the first
   * entry of `caps` when there is one. With no caps left the tty layer is
   * greedy and fills the request.
   */
  function Take(pending: seq<byte>, caps: seq<nat>, want: nat): (n: nat)
    ensures n <= want && n <= |pending|
    ensures caps == [] ==> n == Min(want, |pending|)
  {
    if caps == [] then Min(want, |pending|) else Min(want, Min(|pending|, caps[0]))
  }

  function Rest(caps: seq<nat>): (rest: seq<nat>)
  {
    if caps == [] then [] else caps[1..]
  }

  /**
   * What a framing pass produced: the bytes put into the buffer and how
   * many bytes it took from the front of the pending output.
   */
  datatype Fill = Fill(frame: seq<byte>, taken: nat)

  /**
   * The headered loop from buffer offset `used` on: while `used < guard`
   * and the tty layer hands over some bytes (at most `OPktSize - 1`), emit
   * the tag byte followed by those bytes.
   */
  function FillHeadered(port: nat, pending: seq<byte>, caps: seq<nat>, used: nat, guard: nat): (f: Fill)
    decreases |pending|
    ensures f.taken <= |pending|
    ensures f.frame == [] <==> used >= guard || Take(pending, caps, OPktSize - 1) == 0
    ensures f.frame == [] <==> f.taken == 0
    ensures f.frame != [] ==> f.taken < |f.frame|
    ensures used + |f.frame| <= if used >= guard then used else guard + OPktSize - 1
  {
    if used >= guard then Fill([], 0)
    else
      var n := Take(pending, caps, OPktSize - 1);
      if n == 0 then Fill([], 0)
      else
        var next := FillHeadered(port, pending[n..], Rest(caps), used + 1 + n, guard);
        Fill([OutTag(n, port)] + pending[..n] + next.frame, n + next.taken)
  }

  /** One turn of the headered loop: a packet of `n` bytes in front of the rest of the pass. */
  lemma FillHeaderedUnfold(port: nat, pending: seq<byte>, caps: seq<nat>, used: nat, guard: nat, n: nat, next: Fill)
    requires used < guard && 0 < n == Take(pending, caps, OPktSize - 1)
    requires next == FillHeadered(port, pending[n..], Rest(caps), used + 1 + n, guard)
    ensures FillHeadered(port, pending, caps, used, guard) == Fill([OutTag(n, port)] + pending[..n] + next.frame, n + next.taken)
  {
  }

  /**
   * The chip's reading of a headered buffer: a sequence of packets, each a
   * tag naming `port` and a nonzero length, followed by that many bytes.
   * Yields the payload bytes in order, or None when the buffer is not such
   * a sequence.
   */
  function Unframe(port: nat, frame: seq<byte>): (r: Option<seq<byte>>)
    decreases |frame|
    ensures r.Some? ==> |r.value| <= |frame|
    ensures r.Some? && frame != [] ==> |r.value| < |frame|
  {
    if frame == [] then Some([])
    else
      var n := OutTagLength(frame[0]);
      if n == 0 || OutTagPort(frame[0]) != port || |frame| < 1 + n then None
      else
        match Unframe(port, frame[1 + n..])
        case None => None
        case Some(payload) => Some(frame[1..1 + n] + payload)
  }

  /** The buffer of a pass unframes to exactly the bytes the pass took from the front of `pending`. */
  predicate Carries(port: nat, f: Fill, pending: seq<byte>)
  {
    f.taken <= |pending| && Unframe(port, f.frame) == Some(pending[..f.taken])
  }

  /**
   * Every headered buffer the loop builds is a well-formed packet sequence
   * whose payload is exactly the bytes taken from the pending output, in
   * order.
   */
  lemma {:induction false} FillHeaderedUnframes(port: nat, pending: seq<byte>, caps: seq<nat>, used: nat, guard: nat)
    requires port < 4
    decreases |pending|
    ensures Carries(port, FillHeadered(port, pending, caps, used, guard), pending)
  {
    var n := Take(pending, caps, OPktSize - 1);
    if used < guard && n > 0 {
      FillHeaderedUnframes(port, pending[n..], Rest(caps), used + 1 + n, guard);
      FillHeaderedStep(port, pending, caps, used, guard, n, FillHeadered(port, pending[n..], Rest(caps), used + 1 + n, guard));
    } else {
      EmptyFillUnframes(port, pending, caps, used, guard);
    }
  }

  /** A pass that stops at once leaves an empty buffer, which unframes to nothing. */
  lemma EmptyFillUnframes(port: nat, pending: seq<byte>, caps: seq<nat>, used: nat, guard: nat)
    requires used >= guard || Take(pending, caps, OPktSize - 1) == 0
    ensures Carries(port, FillHeadered(port, pending, caps, used, guard), pending)
  {
    var f := FillHeadered(port, pending, caps, used, guard);
    assert f.frame == [] && f.taken == 0;
    assert pending[..0] == [];
  }

  /** The step of the induction above: one more packet in front. */
  lemma FillHeaderedStep(port: nat, pending: seq<byte>, caps: seq<nat>, used: nat, guard: nat, n: nat, next: Fill)
    requires port < 4 && used < guard && 0 < n == Take(pending, caps, OPktSize - 1)
    requires next == FillHeadered(port, pending[n..], Rest(caps), used + 1 + n, guard)
    requires Carries(port, next, pending[n..])
    ensures Carries(port, FillHeadered(port, pending, caps, used, guard), pending)
  {
    FillHeaderedUnfold(port, pending, caps, used, guard, n, next);
    UnframePacket(port, n, pending, next, FillHeadered(port, pending, caps, used, guard));
  }

  /**
   * A buffer made of one packet carrying the first `n` pending bytes in
   * front of a buffer that unframes to the next `taken` bytes unframes to
   * the first `n + taken` bytes.
   */
  lemma UnframePacket(port: nat, n: nat, pending: seq<byte>, next: Fill, whole: Fill)
    requires 0 < n < 64 && port < 4 && n <= |pending|
    requires Carries(port, next, pending[n..])
    requires whole == Fill([OutTag(n, port)] + pending[..n] + next.frame, n + next.taken)
    ensures Carries(port, whole, pending)
  {
    OutTagRoundTrip(n, port);
    assert whole.frame[1..1 + n] == pending[..n];
    assert whole.frame[1 + n..] == next.frame;
    assert pending[..n] + pending[n..][..next.taken] == pending[..whole.taken];
  }

  /**
   * The outcome of one write callback: the buffer submitted, if any, and
   * how many pending bytes went into it.
   */
  datatype Transfer = Transfer(submitted: Option<seq<byte>>, taken: nat)

  /**
   * The data part of `uftdi_write_callback`, for a given loop guard on the
   * headered path. Headerless chips take up to a whole buffer in one call.
   * A buffer is submitted iff it is nonempty.
   */
  function WriteData(p: Profile, pending: seq<byte>, caps: seq<nat>, guard: nat): (t: Transfer)
    requires p.hdrLen <= 1
    ensures t.taken <= |pending|
    ensures t.submitted.None? <==> t.taken == 0
    ensures t.submitted.Some? ==> t.submitted.value != []
    ensures p.hdrLen == 0 && t.submitted.Some? ==> |t.submitted.value| <= OBufSize
    ensures p.hdrLen == 0 && t.submitted.Some? ==> t.taken <= |pending| && t.submitted.value == pending[..t.taken]
    ensures p.hdrLen == 1 && t.submitted.Some? ==> |t.submitted.value| <= guard + OPktSize - 1
  {
    if p.hdrLen == 0 then
      var n := Take(pending, caps, OBufSize);
      if n == 0 then Transfer(None, 0) else Transfer(Some(pending[..n]), n)
    else
      var f := FillHeadered(p.portNo, pending, caps, 0, guard);
      if f.frame == [] then Transfer(None, 0) else Transfer(Some(f.frame), f.taken)
  }

  /** The headered loop guard as written: room for a header and one payload byte. */
  function GuardAsWritten(p: Profile): (guard: nat)
  {
    if OBufSize >= p.hdrLen + 1 then OBufSize - p.hdrLen - 1 else 0
  }

  /** The headered loop guard that leaves room for a whole packet. */
  const GuardWholePacket: nat := OBufSize - OPktSize + 1

  /**
   * The write callback with the guard as written: headerless buffers are
   * the pending bytes themselves, headered ones unframe to them, but a
   * headered buffer may end a whole packet past UFTDI_OBUFSIZE - 2.
   */
  function WriteCallbackAsWritten(p: Profile, pending: seq<byte>, caps: seq<nat>): (t: Transfer)
    requires p.hdrLen <= 1
    ensures t.taken <= |pending|
    ensures t.submitted.None? <==> t.taken == 0
    ensures p.hdrLen == 0 && t.submitted.Some? ==> |t.submitted.value| <= OBufSize
    ensures p.hdrLen == 0 && t.submitted.Some? ==> t.taken <= |pending| && t.submitted.value == pending[..t.taken]
    ensures p.hdrLen == 1 && t.submitted.Some? ==> |t.submitted.value| <= OBufSize - 2 + OPktSize - 1
    ensures p.hdrLen == 1 && p.portNo < 4 && t.submitted.Some? ==> t.taken <= |pending| && Unframe(p.portNo, t.submitted.value) == Some(pending[..t.taken])
  {
    var t := WriteData(p, pending, caps, GuardAsWritten(p));
    assert p.hdrLen == 1 && p.portNo < 4 && t.submitted.Some? ==>
      Unframe(p.portNo, t.submitted.value) == Some(pending[..t.taken]) by {
      if p.hdrLen == 1 && p.portNo < 4 {
        FillHeaderedUnframes(p.portNo, pending, caps, 0, GuardAsWritten(p));
      }
    }
    t
  }

  /**
   * The write callback with the corrected guard: whatever the tty layer
   * hands over, the buffer never exceeds UFTDI_OBUFSIZE; headerless
   * buffers are the pending bytes themselves, and headered ones unframe to
   * them.
   */
  function WriteCallback(p: Profile, pending: seq<byte>, caps: seq<nat>): (t: Transfer)
    requires p.hdrLen <= 1
    ensures t.taken <= |pending|
    ensures t.submitted.None? <==> t.taken == 0
    ensures t.submitted.Some? ==> t.submitted.value != [] && |t.submitted.value| <= OBufSize
    ensures p.hdrLen == 0 && t.submitted.Some? ==> t.taken <= |pending| && t.submitted.value == pending[..t.taken]
    ensures p.hdrLen == 1 && p.portNo < 4 && t.submitted.Some? ==> t.taken <= |pending| && Unframe(p.portNo, t.submitted.value) == Some(pending[..t.taken])
  {
    var t := WriteData(p, pending, caps, GuardWholePacket);
    assert p.hdrLen == 1 && p.portNo < 4 && t.submitted.Some? ==>
      Unframe(p.portNo, t.submitted.value) == Some(pending[..t.taken]) by {
      if p.hdrLen == 1 && p.portNo < 4 {
        FillHeaderedUnframes(p.portNo, pending, caps, 0, GuardWholePacket);
      }
    }
    t
  }

  /** How many packets the loop starts from offset `used` when every packet is full. */
  function PacketsBeforeGuard(used: nat, guard: nat): (n: nat)
    decreases guard - used
  {
    if used >= guard then 0 else 1 + PacketsBeforeGuard(used + OPktSize, guard)
  }

  lemma {:induction false} PacketsBeforeGuardClosed(used: nat, guard: nat)
    decreases guard - used
    ensures PacketsBeforeGuard(used, guard) == if used >= guard then 0 else (guard - used + OPktSize - 1) / OPktSize
  {
    if used < guard {
      PacketsBeforeGuardClosed(used + OPktSize, guard);
    }
  }

  /** The number of packets, full but for the last, that carry `c` payload bytes. */
  function Packets(c: nat): (n: nat)
  {
    (c + OPktSize - 2) / (OPktSize - 1)
  }

  /**
   * With a greedy tty layer the loop emits full packets until the guard or
   * the data stops it: it takes `min(N, 63 * P)` of the `N` pending bytes,
   * `P` being the number of packets the guard allows, and the buffer holds
   * those bytes plus one tag per started packet.
   */
  lemma {:induction false} GreedyFill(port: nat, pending: seq<byte>, used: nat, guard: nat)
    decreases |pending|
    ensures var f := FillHeadered(port, pending, [], used, guard);
      f.taken == Min(|pending|, (OPktSize - 1) * PacketsBeforeGuard(used, guard)) &&
      |f.frame| == f.taken + Packets(f.taken)
  {
    var n := Take(pending, [], OPktSize - 1);
    if used < guard && n > 0 {
      GreedyFill(port, pending[n..], used + 1 + n, guard);
      GreedyFillStep(port, pending, used, guard, n, FillHeadered(port, pending[n..], [], used + 1 + n, guard));
    }
  }

  /** The step of the induction above: one more full or final packet in front. */
  lemma GreedyFillStep(port: nat, pending: seq<byte>, used: nat, guard: nat, n: nat, next: Fill)
    requires used < guard && 0 < n == Take(pending, [], OPktSize - 1)
    requires next == FillHeadered(port, pending[n..], [], used + 1 + n, guard)
    requires next.taken == Min(|pending| - n, (OPktSize - 1) * PacketsBeforeGuard(used + 1 + n, guard))
    requires |next.frame| == next.taken + Packets(next.taken)
    ensures var f := FillHeadered(port, pending, [], used, guard);
      f.taken == Min(|pending|, (OPktSize - 1) * PacketsBeforeGuard(used, guard)) &&
      |f.frame| == f.taken + Packets(f.taken)
  {
    FillHeaderedUnfold(port, pending, [], used, guard, n, next);
    GreedyCounts(n, |pending|, used, guard, next.taken, |next.frame|);
  }

  /** The counts of `GreedyFillStep`, apart from the bytes. */
  lemma GreedyCounts(n: nat, total: nat, used: nat, guard: nat, taken: nat, frame: nat)
    requires used < guard && 0 < n == Min(OPktSize - 1, total)
    requires taken == Min(total - n, (OPktSize - 1) * PacketsBeforeGuard(used + 1 + n, guard))
    requires frame == taken + Packets(taken)
    ensures n + taken == Min(total, (OPktSize - 1) * PacketsBeforeGuard(used, guard))
    ensures 1 + n + frame == n + taken + Packets(n + taken)
  {
    var packets := PacketsBeforeGuard(used, guard);
    if n == OPktSize - 1 {
      assert PacketsBeforeGuard(used + 1 + n, guard) == packets - 1;
    } else {
      assert taken == 0 && frame == 0;
    }
    GreedyStep(n, total, taken, frame, packets);
  }

  /** The arithmetic of one greedy packet: a short one ends the data, a full one leaves one packet fewer. */
  lemma GreedyStep(n: nat, total: nat, taken: nat, frame: nat, packets: nat)
    requires 0 < n == Min(OPktSize - 1, total) && packets > 0
    requires n < OPktSize - 1 ==> taken == 0 && frame == 0
    requires n == OPktSize - 1 ==>
      taken == Min(total - n, (OPktSize - 1) * (packets - 1)) && frame == taken + Packets(taken)
    ensures n + taken == Min(total, (OPktSize - 1) * packets)
    ensures 1 + n + frame == n + taken + Packets(n + taken)
  {
  }

  /**
   * On the headered path a greedy tty layer never overruns the buffer, even
   * with the guard as written: 32 full packets carry 2016 bytes in exactly
   * UFTDI_OBUFSIZE bytes.
   */
  lemma GreedyWithinBuffer(p: Profile, pending: seq<byte>)
    requires p.hdrLen == 1
    ensures var t := WriteCallbackAsWritten(p, pending, []);
      t.taken == Min(|pending|, 2016) &&
      (t.submitted.Some? ==> |t.submitted.value| <= OBufSize)
  {
    GreedyFill(p.portNo, pending, 0, GuardAsWritten(p));
    PacketsBeforeGuardClosed(0, GuardAsWritten(p));
  }

  /**
   * The guard as written admits a new packet whenever two bytes are left,
   * so a short packet followed by full ones overruns UFTDI_OBUFSIZE: 60
   * bytes first (offset 61), then 32 full packets reach offset 2109.
   */
  lemma HeaderedOverrun(pending: seq<byte>)
    requires |pending| >= 60 + 32 * 63
    ensures var p := DevTypeSetup(0x100, 0, 0);
      var t := WriteCallbackAsWritten(p, pending, [60]);
      t.submitted.Some? && |t.submitted.value| == 2109 > OBufSize
  {
    var p := DevTypeSetup(0x100, 0, 0);
    assert p.hdrLen == 1 && p.portNo == 0 && GuardAsWritten(p) == 2046;
    var next := FillHeadered(0, pending[60..], [], 61, 2046);
    assert FillHeadered(0, pending, [60], 0, 2046) ==
      Fill([OutTag(60, 0)] + pending[..60] + next.frame, 60 + next.taken);
    GreedyFill(0, pending[60..], 61, 2046);
    PacketsBeforeGuardClosed(61, 2046);
  }

  /**
   * With a greedy tty layer both guards build the same buffer: full
   * packets leave the offset a multiple of 64, and no such offset lies
   * between the two guards.
   */
  lemma {:induction false} GreedyGuardsAgree(port: nat, pending: seq<byte>, used: nat)
    requires used % OPktSize == 0 || |pending| == 0
    decreases |pending|
    ensures FillHeadered(port, pending, [], used, OBufSize - 2) == FillHeadered(port, pending, [], used, GuardWholePacket)
  {
    var n := Take(pending, [], OPktSize - 1);
    if used < OBufSize - 2 && n > 0 {
      assert used < GuardWholePacket;
      if n < OPktSize - 1 {
        assert |pending[n..]| == 0;
      }
      GreedyGuardsAgree(port, pending[n..], used + 1 + n);
      GreedyGuardsStep(port, pending, used, n, FillHeadered(port, pending[n..], [], used + 1 + n, GuardWholePacket));
    }
  }

  /** The step of the induction above: the same packet in front of the same rest. */
  lemma GreedyGuardsStep(port: nat, pending: seq<byte>, used: nat, n: nat, next: Fill)
    requires used < GuardWholePacket && 0 < n == Take(pending, [], OPktSize - 1)
    requires next == FillHeadered(port, pending[n..], [], used + 1 + n, GuardWholePacket)
    requires next == FillHeadered(port, pending[n..], [], used + 1 + n, OBufSize - 2)
    ensures FillHeadered(port, pending, [], used, OBufSize - 2) == FillHeadered(port, pending, [], used, GuardWholePacket)
  {
    FillHeaderedUnfold(port, pending, [], used, OBufSize - 2, n, next);
    FillHeaderedUnfold(port, pending, [], used, GuardWholePacket, n, next);
  }

  /** The corrected guard changes nothing for a greedy tty layer. */
  lemma GreedyCallbacksAgree(p: Profile, pending: seq<byte>)
    requires p.hdrLen <= 1
    ensures WriteCallbackAsWritten(p, pending, []) == WriteCallback(p, pending, [])
  {
    if p.hdrLen == 1 {
      GreedyGuardsAgree(p.portNo, pending, 0);
    }
  }
}

=== FILE: registers.dfy ===
/**
 * Register-level constants and macros of the FTDI protocol. They come from
 * dev/usb/serial/uftdi_reg.h, which is not part of this model; the values
 * are those of that header. Every property in the other modules is stated
 * through these names.
 */
module Registers {
  import opened Types

  // Line control word (FTDI_SIO_SET_DATA request value).
  const SetDataParityNone: bv16 := 0x0000
  const SetDataParityOdd: bv16 := 0x0100
  const SetDataParityEven: bv16 := 0x0200
  const SetDataStopBits1: bv16 := 0x0000
  const SetDataStopBits2: bv16 := 0x1000
  const SetBreak: bv16 := 0x4000

  /** FTDI_SIO_SET_DATA_BITS(n): the character size sits in the low byte. */
  function SetDataBits(n: bv16): (lcr: bv16) { n }

  // Flow control selector (high byte of the FTDI_SIO_SET_FLOW_CTRL index).
  const DisableFlowCtrl: byte := 0x00
  const RtsCtsHs: byte := 0x01
  const XonXoffHs: byte := 0x04

  /** First port index of the multi-port chips. */
  const PitSioA: nat := 1

  // Input packet header: byte 0 carries the modem status, byte 1 the line status.
  const MsrMask: byte := 0xf0
  const CtsMask: byte := 0x10
  const DsrMask: byte := 0x20
  const RiMask: byte := 0x40
  const RlsdMask: byte := 0x80
  /** The line-status bits whose change is worth a notification (`~0x60` as a byte). */
  const LsrMask: byte := 0x9f

  /** FTDI_GET_MSR: the modem-status bits of an input packet header. */
  function GetMsr(hdr0: byte): (msr: byte) { hdr0 & MsrMask }

  /** FTDI_GET_LSR: the line-status byte of an input packet header. */
  function GetLsr(hdr1: byte): (lsr: byte) { hdr1 }

  /**
   * FTDI_OUT_TAG(len, port): the one-byte header of an output packet on the
   * earliest chips, `(len << 2) | port` stored into a byte.
   */
  function OutTag(len: nat, port: nat): (tag: byte)
    requires len < 64
  {
    ((len as bv8) << 2) | ((port % 256) as bv8)
  }

  /** The payload length a chip reads back from an output packet header. */
  function OutTagLength(tag: byte): (len: nat)
  {
    (tag >> 2) as nat
  }

  /** The port number a chip reads back from an output packet header. */
  function OutTagPort(tag: byte): (port: nat)
  {
    (tag & 3) as nat
  }

  /**
   * The header's two fields read back as written, provided the port number
   * fits in the two bits the tag leaves it.
   */
  lemma OutTagRoundTrip(len: nat, port: nat)
    requires len < 64 && port < 4
    ensures OutTagLength(OutTag(len, port)) == len
    ensures OutTagPort(OutTag(len, port)) == port
  {
    var l := len as bv8;
    var q := (port % 256) as bv8;
    assert l < 64 && q < 4;
    assert ((l << 2) | q) >> 2 == l;
    assert ((l << 2) | q) & 3 == q;
  }
}

=== FILE: types.dfy ===
/** Small shared types: bytes, optional values and the driver's error returns. */
module Types {

  /** An unsigned 8-bit quantity (`uint8_t`). */
  type byte = bv8

  datatype Option<+T> = None | Some(value: T)

  /** The errno values the protocol engine can return. */
  datatype Errno = ERANGE

  /** A success value or the errno the C function would return instead of 0. */
  datatype Result<+T> = Ok(value: T) | Err(error: Errno)
}
